=== FILE: README.md ===
# ANP weather agent: DID authentication and MCP proxy, modelled in Dafny

This project models the request-handling core of the ANP weather agent.

- **DID authentication middleware.** Every request outside a fixed list of exempt paths must carry an `Authorization` header.
  - A `DIDWba` header is checked in a fixed order: timestamp freshness (five minutes, no future timestamps), then one-time use of its nonce (nonces are remembered for six minutes and purged at most once a minute), then the DID document's signature.
  - A request that passes all three gets a five-minute RS256 bearer token, returned in the response's `Authorization` header.
  - A `Bearer` header is accepted while its token verifies and has not expired.
  - Every refusal becomes a JSON `{"detail": ...}` response with status 401, 403 or 500.
- **MCP server manager.** It keeps a registry of MCP providers keyed by lower-cased name. A prefixed tool name (`amap_get_weather`) is resolved to a provider's server. Tools and resources discovered from the servers are cached, each tagged with its provider.
- **MCP agent router.**
  - The provider listing, which counts each provider's tools and resources.
  - The per-provider description: 404 for an unknown provider.
  - Tool calls in JSON-RPC 2.0 and legacy form, with the JSON-RPC error codes -32000 and -32603.
  - Resource reads, by the provider prefix of the resource URI.
- **Weather endpoint.** It checks the city name, looks up its AMAP adcode by first prefix match over the city table, and relays the AMAP weather answer. Each refusal has its own `infocode`.
- **Natural-language endpoint.** A reply is streamed as server-sent events: one `data:` event per word, closed by `data: [DONE]`.

Time is an integer count of microseconds, the resolution of Python's `datetime`. JWT dates are whole seconds (NumericDate, section 2 of RFC 7519). Several things are parameters of the model rather than modelled: cryptography, DID resolution, ISO 8601 parsing, the MCP SDK, the city-table file and the AMAP service.

Modules, one file each:

- `common.dfy`: `Option`, `Result`.
- `json.dfy`: decoded JSON and Python truthiness.
- `text.dfy`: Python string operations on `seq<char>`.
- `freshness.dfy`: the constants and the timestamp check.
- `replay_guard.dfy`: the nonce table.
- `tokens.dfy`: JWT claims, issuing and verifying.
- `did_auth.dfy`: the request decision and the middleware.
- `did_auth_props.dfy`: properties across requests.
- `provider_registry.dfy`: the MCP server manager.
- `mcp_router.dfy`: the MCP router.
- `weather_info.dfy`: the weather endpoint.
- `event_stream.dfy`: the natural-language endpoint.

## Model

| member | source | states |
|---|---|---|
| Freshness.VerifyTimestamp | api_router/did_auth_middleware.py:46-74 | A timestamp is accepted iff it parses with an offset, is not in the future, and is at most five minutes old. A timestamp without an offset raises, and is not reported as stale. An unparseable one is refused. |
| Freshness.BoundaryOfWindow | api_router/did_auth_middleware.py:59-71 | A timestamp is fresh at its own instant and exactly five minutes later. It is stale one microsecond later and one microsecond before. |
| Freshness.FreshInBetween | api_router/did_auth_middleware.py:59-71 | Freshness is an interval: a timestamp fresh at `now` is fresh at every earlier time back to itself. |
| Freshness.TrailingZIsUtc | api_router/did_auth_middleware.py:57 | A trailing `Z` is read as `+00:00`, and an explicit `+00:00` is left alone. |
| ReplayGuard.InitialGuard | api_router/did_auth_middleware.py:34-38 | The process starts with no nonce recorded and the cleanup clock at start-up time. |
| ReplayGuard.VerifyAndRecord | api_router/did_auth_middleware.py:157-188 | A recorded (did, nonce) is refused and the table is left as is. Otherwise the pair is recorded with the current time. Every other record is kept unchanged, and nothing else is added. |
| ReplayGuard.SecondUseRejected | api_router/did_auth_middleware.py:172-188 | The first use of a nonce is accepted and a second use for the same DID is refused. |
| ReplayGuard.Survivors | api_router/did_auth_middleware.py:117-120 | Within one DID, exactly the nonces not older than six minutes stay, with their times. |
| ReplayGuard.Purge | api_router/did_auth_middleware.py:109-125 | A record survives cleanup iff it is at most six minutes old, with its time unchanged. No DID is left with an empty table. |
| ReplayGuard.EntryDroppedIff | api_router/did_auth_middleware.py:123-125 | A DID disappears from the table iff all of its nonces have expired. |
| ReplayGuard.PurgeIdempotent | api_router/did_auth_middleware.py:109-125 | Cleaning twice at the same time is the same as cleaning once. |
| ReplayGuard.DropExpired | api_router/did_auth_middleware.py:117-121 | The loop over one DID's nonces leaves exactly the survivors. The count it adds is the number of nonces removed. |
| ReplayGuard.CleanupExpiredNonces | api_router/did_auth_middleware.py:109-141 | The loop over all DIDs leaves exactly the purged table. `cleaned_count` is the number of (did, nonce) records removed. |
| ReplayGuard.CheckAndCleanup | api_router/did_auth_middleware.py:148-155 | Cleanup runs, and moves the cleanup clock to now, only when more than 60 seconds have passed since the last one. Otherwise nothing changes. |
| ReplayGuard.CheckAndCleanupKeepsYoung | api_router/did_auth_middleware.py:148-155 | A record at most six minutes old survives the cleanup trigger, with its time. |
| ReplayGuard.CheckAndCleanupSettles | api_router/did_auth_middleware.py:148-155 | Triggering again at the same instant changes nothing. |
| ReplayGuard.CheckAndCleanupBoundsAge | api_router/did_auth_middleware.py:148-155 | Just after the trigger, no record is older than six minutes plus one cleanup interval. |
| ReplayGuard.RecordKeepsAge | api_router/did_auth_middleware.py:181-188 | Recording a nonce keeps that age bound. |
| Tokens.IssueClaims | api_router/did_auth_middleware.py:272-277 | The payload's subject is the DID and `iat` is the issue time in whole seconds (floor). `exp` is exactly 300 seconds after `iat`. |
| Tokens.IssueToken | api_router/did_auth_middleware.py:279-287 | Without a private key (missing or empty) no token is issued. Otherwise the token is the payload signed with that key. |
| Tokens.VerifyBearer | api_router/did_auth_middleware.py:293-322 | Without a public key the token is refused for configuration. A token whose signature fails is invalid. A correctly signed token is valid iff the current time is before `exp`, and expired otherwise. |
| Tokens.IssuedTokenRoundTrip | api_router/did_auth_middleware.py:272-319 | An issued token verifies, with the claims it was issued with, under the matching public key until its `exp` second. From then on it is reported expired. |
| Tokens.TokenLifetime | api_router/did_auth_middleware.py:272-277 | Because `iat` drops the fraction of a second, an issued token is accepted for at least 299 and at most 300 seconds. |
| Tokens.ForeignKeyRejected | api_router/did_auth_middleware.py:313-322 | A token signed with a key that does not pair with the public key is invalid, never expired. |
| DidAuth.Status | api_router/did_auth_middleware.py:324-403 | The refusal classes map to statuses: 401 for a missing header, unsupported scheme, bad timestamp, reused nonce, missing DID or expired token; 403 for a bad signature or invalid token; 500 for configuration and internal errors. |
| DidAuth.BeforeColon | api_router/did_auth_middleware.py:92 | The text before the first ':' of the host is a prefix of it without ':'. |
| DidAuth.HostDomain | api_router/did_auth_middleware.py:76-101 | The domain is the host up to its first ':', so a port is dropped. |
| DidAuth.Dispatch | api_router/did_auth_middleware.py:352-395 | A header is a DID header iff its lower-cased form contains "didwba ", even when "bearer " also occurs. Otherwise it is a bearer header iff it contains "bearer ", and the token is everything after the first "bearer ". Otherwise the scheme is unsupported. |
| DidAuth.SignatureAccepted | api_router/did_auth_middleware.py:252-269 | (predicate) The DID is non-empty, its document resolves, and the signature is valid over it. |
| DidAuth.GenerateToken | api_router/did_auth_middleware.py:237-291 | A token is issued iff the DID is non-empty, its document resolves, the signature is valid and a private key is configured. The token is signed over that DID and the request time. A valid signature without a private key is the 500 configuration error. A missing DID is refused iff the DID is empty, and a failed signature is refused iff the signature is invalid. An exception from parsing, resolving or signature checking is an internal error, in both directions. |
| DidAuth.DidFlow | api_router/did_auth_middleware.py:360-382 | The nonce table changes iff the header parses, the timestamp is accepted and the nonce is new. It then gains exactly that record, and the outcome is the token decision. A refused timestamp leaves the table unchanged, and a reused nonce is refused. |
| DidAuth.BearerFlow | api_router/did_auth_middleware.py:385-391 | A bearer header authenticates without a new token iff the token verifies and has not expired. Each failure is reported as its own refusal. |
| DidAuth.Authenticate | api_router/did_auth_middleware.py:324-403 | Exempt paths pass untouched and a missing header is refused. A DID header is decided by exactly the DID flow, with the host's domain. A bearer header is decided by exactly the bearer flow on the dispatched token, and the nonce table is left alone. An unknown scheme is refused. The nonce table changes only by recording the request's own (did, nonce). A token is issued only to a request that consumed its nonce. |
| DidAuth.ErrorResponse | api_router/did_auth_middleware.py:439-441 | A refusal becomes a JSON `{"detail": ...}` response with the refusal's status. |
| DidAuth.Handle | api_router/did_auth_middleware.py:405-441 | The middleware always runs the cleanup trigger first and keeps records younger than six minutes. It answers with the downstream response, or with a 401/403/500 refusal, or with the downstream response carrying `Authorization: Bearer <token>`. |
| DidAuth.HandleOutcome | api_router/did_auth_middleware.py:405-441 | A refusal from the decision procedure is answered with its JSON error response and is not passed downstream. An authentication that issued a non-empty token gets the downstream response with `Authorization: Bearer <token>` added. Any other authentication gets the downstream response unchanged. The nonce table kept is the one the decision procedure left. |
| DidAuth.RefusalNotForwarded | api_router/did_auth_middleware.py:418-441 | When the downstream status is not 401, 403 or 500, the middleware answers with the downstream status iff the request was authenticated. A refused request gets the refusal's status. |
| DidAuthProperties.RejectedTimestampKeepsTable | api_router/did_auth_middleware.py:366-376 | The timestamp is checked before the nonce: a refused timestamp is a 401, or a 500 when it has no offset, and leaves the nonce table as it was. |
| DidAuthProperties.SignatureFailureConsumesNonce | api_router/did_auth_middleware.py:375-380 | The nonce is recorded before the signature is checked, so a 403 for the signature has still used up its nonce. |
| DidAuthProperties.IssuedTokenClaims | api_router/did_auth_middleware.py:272-287 | An issued token carries the header's DID, the request time and an expiry 300 seconds later, and was issued only after the nonce was consumed. |
| DidAuthProperties.DidRequestIssuesToken | api_router/did_auth_middleware.py:272-291 | The success path: a DID request that consumes its nonce, whose signature is accepted, on a server with a private key, is authenticated with the token signed over its DID and the request time. Its nonce is recorded, and the response is the downstream one with `Authorization: Bearer <token>`. |
| DidAuthProperties.DidRefusalAnswered | api_router/did_auth_middleware.py:252-269 | A DIDWba request whose signature is not accepted is refused, and is answered with the error response alone. |
| DidAuthProperties.BearerHeaderDispatch | api_router/did_auth_middleware.py:385-388 | "Bearer " followed by a space-free token is dispatched to bearer authentication with exactly that token. |
| DidAuthProperties.IssuedTokenAuthenticates | api_router/did_auth_middleware.py:430-433 | The token issued by a successful DID authentication is the one DidRequestIssuesToken shows in the response header. Sent back as "Bearer <token>", it authenticates later requests for 299 seconds, without a new token and without touching the nonce table. From 300 seconds on it is refused as expired. |
| DidAuthProperties.ForgedBearerRefused | api_router/did_auth_middleware.py:293-322 | A bearer token that does not verify under the configured public key is refused with 403 and leaves the nonce table alone. Without a public key, every bearer request is the 500 configuration error. |
| DidAuthProperties.ForeignKeyTokenRefused | api_router/did_auth_middleware.py:293-322 | A token signed with a private key that does not pair with the configured public key is refused as invalid, at any time. |
| DidAuthProperties.StepPreserves | api_router/did_auth_middleware.py:416-417 | Handling any request within six minutes of a record keeps that record. |
| DidAuthProperties.RunPreserves | api_router/did_auth_middleware.py:109-155 | A record survives any sequence of requests handled within six minutes of it. |
| DidAuthProperties.NoReplay | api_router/did_auth_middleware.py:157-188 | A DID request replayed after any sequence of other requests is refused with 401, either for its timestamp or for its nonce. |
| DidAuthProperties.NonceReuseRefused | api_router/did_auth_middleware.py:157-188 | Once a DID request has consumed a (did, nonce) pair, any later DIDWba request with the same pair is refused as a reused nonce (401), provided its timestamp passes and it arrives within six minutes. Its other header fields do not matter, and neither do the requests handled in between. |
| ProviderRegistry.NewManager | api_router/weather/mcp_server_manager.py:23-27 | A new manager has empty caches and no providers. |
| ProviderRegistry.GetServerConfig | api_router/weather/mcp_server_manager.py:29-50 | A tool name without '_' has no server. Otherwise the server is found iff the lower-cased text before the first '_' is a configured provider, and it is that provider's configuration. |
| ProviderRegistry.AddProvider | api_router/weather/mcp_server_manager.py:122-134 | The configuration is stored under the lower-cased name and replaces any earlier one for that key. Other providers and both caches are unchanged. A new key is appended to the iteration order. |
| ProviderRegistry.AddThenLookup | api_router/weather/mcp_server_manager.py:40-48 | After adding a provider whose name has no '_', any tool name `<name>_<suffix>` resolves to exactly that configuration. |
| ProviderRegistry.UnderscoreProviderUnreachable | api_router/weather/mcp_server_manager.py:43-48 | A provider whose name contains '_' is never found by that lookup. The lookup reads the shorter key before its first '_'. |
| ProviderRegistry.ToolsFrom | api_router/weather/mcp_server_manager.py:78-93 | A listed tool set is cached whole and in order, one record per listed tool. Each record keeps the tool's name and carries the provider. The description defaults to "No description available" and the input schema to `{}`. A failed connection or tool listing contributes nothing. |
| ProviderRegistry.ResourcesFrom | api_router/weather/mcp_server_manager.py:96-111 | A listed resource set is cached whole and in order. Each record's URI is `<provider>://` plus the listed URI, and its name is the upper-cased provider, a space and the listed name. The description defaults to "" and the MIME type to "text/plain". A failed connection or resource listing contributes nothing. |
| ProviderRegistry.Harvest | api_router/weather/mcp_server_manager.py:62-120 | Visiting the providers in turn caches only tools of configured providers whose servers connected, and only resources with a configured provider prefix. |
| ProviderRegistry.Initialize | api_router/weather/mcp_server_manager.py:52-120 | Both caches are emptied first and stay empty without the SDK. The configuration is never changed. |
| ProviderRegistry.HarvestIsConcat | api_router/weather/mcp_server_manager.py:64-111 | Nothing is lost and nothing is reordered. The caches are the providers' contributions laid end to end, in the order the providers are visited. |
| ProviderRegistry.InitializeCachesAll | api_router/weather/mcp_server_manager.py:52-111 | With the SDK present, the tool cache is every provider's listed tools, in the order the providers were added, and likewise the resource cache. |
| ProviderRegistry.InitializeKeepsEveryListing | api_router/weather/mcp_server_manager.py:52-111 | With the SDK present, every tool and resource a configured provider's server lists is cached. |
| ProviderRegistry.ResourceUriNamesProvider | api_router/weather/mcp_server_manager.py:100-107 | The text before the first "://" of every cached resource URI is a configured, lower-case provider. |
| McpRouter.Providers | api_router/weather/mcp_agent_ad_router.py:249-267 | The listed providers are distinct and are exactly the non-empty providers of cached tools. |
| McpRouter.ToolsOf | api_router/weather/mcp_agent_ad_router.py:324 | A provider's tools are exactly the cached tools with that provider. |
| McpRouter.ToolsOfKeepsCopies | api_router/weather/mcp_agent_ad_router.py:324 | Duplicates are kept: each tool of the provider occurs as often as in the cache, and other tools do not occur. |
| McpRouter.ToolsOfConcat | api_router/weather/mcp_agent_ad_router.py:324 | Cache order is kept: filtering two stretches of the cache gives the first stretch's tools, then the second's. |
| McpRouter.ResourcesUnder | api_router/weather/mcp_agent_ad_router.py:325-329 | A resource is in the filtered list iff it is cached and its URI starts with the prefix. |
| McpRouter.ResourcesUnderKeepsCopies | api_router/weather/mcp_agent_ad_router.py:325-329 | Duplicates are kept: each resource under the prefix occurs as often as in the cache, and other resources do not occur. |
| McpRouter.ResourcesUnderConcat | api_router/weather/mcp_agent_ad_router.py:325-329 | Cache order is kept: filtering two stretches of the cache gives the first stretch's resources, then the second's. |
| McpRouter.ResourceCount | api_router/weather/mcp_agent_ad_router.py:269-275 | A provider's resource count is zero iff no cached resource URI has that provider before its first "://". |
| McpRouter.ListProviders | api_router/weather/mcp_agent_ad_router.py:235-287 | The two loops give `total_providers` equal to the number of providers, in first-seen order. Each entry has the provider's tools (name and description, in cache order), their count, and the number of its resources. |
| McpRouter.Describe | api_router/weather/mcp_agent_ad_router.py:290-329 | An unknown provider is a 404 iff it is neither a tool provider nor a resource-URI prefix. Otherwise the description lists exactly its tools and exactly the resources under `<provider>://`. The two lists are the filters ToolsOf and ResourcesUnder, so cache order and duplicates carry over. |
| McpRouter.DescriptionMatchesCount | api_router/weather/mcp_agent_ad_router.py:326-329 | For a provider name without "://", a resource starts with `<provider>://` iff the listing counts it for that provider. |
| McpRouter.ResourceOnlyProvider | api_router/weather/mcp_agent_ad_router.py:306-321 | A provider that has resources but no tools is described, yet absent from the provider listing. |
| McpRouter.Unwrap | api_router/weather/mcp_agent_ad_router.py:59-83 | No content gives "No content returned" without error. One item is returned by itself. Several items are returned as a list in order, each parsed as JSON when it parses. |
| McpRouter.CallWithSdk | api_router/weather/mcp_agent_ad_router.py:24-87 | The call fails with the source's messages when the SDK is missing or no server is configured for the provider. It fails with "MCP tool call failed: " and the server's message when the server raises. A result exists only when the SDK and a server are both present. |
| McpRouter.FailedToolCallOutcome | api_router/weather/mcp_agent_ad_router.py:489-529 | A failed call of a cached tool is exactly a 500. In JSON-RPC form it has code -32603, the "Internal error calling tool" message, `data` "MCP tool call error: " followed by the call's error, and the request's id. In legacy form it has `success` false, the tool, the provider, the same message and the same text as `details`. |
| McpRouter.ToolCallWithoutSdk | api_router/weather/mcp_agent_ad_router.py:36-38 | Without the SDK, every call of a cached tool is a 500 whose error data (or legacy `details`) is "MCP tool call error: " followed by "MCP SDK not available". |
| McpRouter.ToolCallRaised | api_router/weather/mcp_agent_ad_router.py:84-86 | A server that raises during a call of a cached tool gives a 500 whose error data (or legacy `details`) wraps "MCP tool call failed: " and the server's message. |
| McpRouter.CallTool | api_router/weather/mcp_agent_ad_router.py:405-529 | A missing tool name is a 400, and a tool not cached for the provider is a 404. A JSON-RPC reply echoes `jsonrpc` 2.0 and the request `id`, and a legacy reply names its provider. An internal failure is a 500 with code -32603. |
| McpRouter.ArgumentsOf | api_router/weather/mcp_agent_ad_router.py:419-431 | The arguments are `params` whenever that member is present. Without it, a JSON-RPC call has `{}`, and a legacy call has `arguments` if present, else `{}`. |
| McpRouter.LegacyToolOutcome | api_router/weather/mcp_agent_ad_router.py:478-487 | A legacy call of a cached tool, made with ArgumentsOf the request, is a 200. Its body is exactly `success` true, `tool` the requested name, `provider`, `result` the unwrapped result and `isError` the tool's error flag. |
| McpRouter.JsonRpcToolOutcome | api_router/weather/mcp_agent_ad_router.py:459-476 | A JSON-RPC call whose tool returns is a 200. A tool error is reported as code -32000 with the result as `data`, and otherwise the result is returned with no `error` member. |
| McpRouter.ResourcePath | api_router/weather/mcp_agent_ad_router.py:553-554 | The cached URI is the provider, "://", then the resource path. |
| McpRouter.ResourcePathRoundTrip | api_router/weather/mcp_agent_ad_router.py:553-554 | A cached URI `p + "://" + x` is read back as provider `p` and path `x`, whatever `x` contains. |
| McpRouter.ResourcePathTruncated | api_router/weather/mcp_agent_ad_router.py:554 | The path as written, `split('://')[1]`, drops everything from a second "://" on. |
| McpRouter.ResourcePathExample | api_router/weather/mcp_agent_ad_router.py:554 | `amap://file://cities` is requested as `file` rather than `file://cities`. |
| McpRouter.ResourcePathAgrees | api_router/weather/mcp_agent_ad_router.py:553-554 | For a listed resource URI without "://", `split('://')[1]` and the corrected path both give that URI back. |
| McpRouter.GetResource | api_router/weather/mcp_agent_ad_router.py:532-593 | A URI no cached resource has is a 404, checked first. A URI without "://" is a 400. A read names the lower-cased provider and echoes the URI, and a failed read is a 500 naming the provider without lower-casing. |
| McpRouter.ReadWithSdk | api_router/weather/mcp_agent_ad_router.py:88-149 | The read fails with the source's messages when the SDK is missing or no server is configured for the provider. It fails with "MCP resource read failed: " and the server's message when the server raises. A result exists only when the server returned contents. |
| McpRouter.FailedResourceRead | api_router/weather/mcp_agent_ad_router.py:566-593 | A failed read of a cached URI containing "://" is exactly the 500 body: `success` false, the URI, the provider as written, "Error getting resource '<uri>'" and `details` "MCP resource read error: " followed by the read's error. |
| McpRouter.ResourceReadWithoutSdk | api_router/weather/mcp_agent_ad_router.py:100-101 | Without the SDK, reading any cached URI is a 500 whose `details` is "MCP resource read error: " followed by "MCP SDK not available". |
| McpRouter.ReadsListedResource | api_router/weather/mcp_agent_ad_router.py:553-571 | On the corrected endpoint, reading a cached URI of a lower-case provider asks that provider's server for the URI it listed. The answer is a 200 with the returned items. By ResourcePathAgrees, the source as written does the same when the listed URI has no "://". |
| WeatherInfo.ScanTable | api_router/weather/weather_info_router.py:118-121 | The scan stops at the first entry whose name starts with the query, or at the first entry that raises. Every entry before that point has a name that does not match. |
| WeatherInfo.GetCityAdcode | api_router/weather/weather_info_router.py:97-124 | The adcode, as text, of the first entry whose name starts with the query. None when nothing matches, the file is unreadable, or an entry before the match raises. |
| WeatherInfo.FirstMatchWins | api_router/weather/weather_info_router.py:118-120 | The entry at the least matching index decides, however many later entries also match. |
| WeatherInfo.BrokenEntryStops | api_router/weather/weather_info_router.py:118-124 | An entry without a string name reached before any match makes the lookup return None. |
| WeatherInfo.LaterEntriesIgnored | api_router/weather/weather_info_router.py:118-121 | Entries after the point where the scan stopped do not affect the result. |
| WeatherInfo.GetWeatherInfo | api_router/weather/weather_info_router.py:30-95 | A name of at most one character is refused as too short, and a name with no usable adcode as invalid. Otherwise the service is asked for that adcode: a 200 body is returned unchanged, another status is reported with that status, and an exception or undecodable body is reported as an error. |
| WeatherInfo.RefusalShape | api_router/weather/weather_info_router.py:42-95 | Every refusal has status "0", count "0" and no forecasts. The infocode is 10003 exactly for city-name refusals, 10002 for a failed service call and 10001 for an exception. |
| WeatherInfo.RefusalsDistinct | api_router/weather/weather_info_router.py:42-95 | Different refusals have different bodies, down to the service's status code. |
| WeatherInfo.ShortNameNeedsNoLookup | api_router/weather/weather_info_router.py:42-49 | A short name is refused without reading the table or calling the service. |
| WeatherInfo.OnlyAdcodeQueried | api_router/weather/weather_info_router.py:62-74 | The outcome depends on the weather service only through its answer for the looked-up adcode. |
| WeatherInfo.FirstMatchForecast | api_router/weather/weather_info_router.py:51-74 | When the first matching entry has a usable adcode and the service answers 200 for it, that forecast is returned. |
| EventStream.StreamResponse | api_router/weather/nl_router.py:15-22 | There is one event per whitespace-separated word, plus one. |
| EventStream.StreamShape | api_router/weather/nl_router.py:18-22 | Word events come first, in input order, each `data: <word>` plus a blank line. The last event is `data: [DONE]`. |
| EventStream.BlankReplyOnlyDone | api_router/weather/nl_router.py:18-22 | The stream is the closing event alone iff the reply is empty or all whitespace. |
| EventStream.DoneOnlyAtEnd | api_router/weather/nl_router.py:18-22 | A `[DONE]` event occurs only at the end, unless the reply itself contains the word `[DONE]`. |
| EventStream.StreamRoundTrip | api_router/weather/nl_router.py:15-22 | A client splitting the body at blank lines and reading `data:` events up to `[DONE]` gets exactly the reply's words, in order. |
| EventStream.AskWeatherQuestion | api_router/weather/nl_router.py:25-36 | The reply is an event stream of the fixed message, whatever the request holds. |
| EventStream.AskReadsFixedMessage | api_router/weather/nl_router.py:25-36 | A client of `/api/ask` reads exactly the words of the fixed message. |

## Left out

- Text.Lower, Text.Upper: only ASCII letters change case. Python's `lower()` and `upper()` also map other Unicode letters.
- One clock reading per request. The middleware reads the clock several times while handling one request, and the model uses a single `now` for all of them.
- Cryptography and DID handling are parameters, not modelled:
  - the signing and verification of tokens;
  - DID document resolution;
  - signature checking;
  - the parsing of the DID header;
  - ISO 8601 parsing.
- Tokens.VerifyBearer: PyJWT's own checks of `iat` and `nbf` are not modelled, and neither are tokens without `exp`. The middleware never issues such tokens.
- Key loading (`jwt_config.py`) is not modelled. Keys are parameters, and an empty key counts as missing.
- `jwt.encode` raising is not modelled. Neither is the "Error processing nonce" 500, which needs a DID or nonce that is not a string.
- DidAuth.Handle: the 401 "Authentication failed" branch is not modelled because it is unreachable. `authenticate_did_request` never returns false.
- Header names are looked up exactly. HTTP header-name case-insensitivity belongs to the web framework.
- The allowed-domain check on the host is commented out in the source and is not modelled.
- JSON numbers are integers. Floating-point values are not modelled.
- The JSON-LD documents are not modelled:
  - the total `ad.json`;
  - the fixed fields of a provider description;
  - the provider list in the 404 detail.
- Each router's "initialize when both caches are empty" step is not modelled. The caches are an input of each endpoint.
- McpRouter.CallTool: the text rendering (`str()`) of a tool name that is not a string is not modelled. The 404 carries the JSON value itself.
- McpRouter.ListProviders: the `ad_url` of each listing entry (mcp_agent_ad_router.py:260) is not modelled. It is a URL built from a configured domain and the provider name, and nothing else in the core depends on it.
- McpRouter.GetResource uses the corrected resource path (see Findings). It differs from the source only for resource URIs containing a second "://".
- McpRouter.ReadsListedResource describes the corrected endpoint. For a listed URI that itself contains "://", the source as written asks for a truncated path instead (McpRouter.ResourcePathTruncated).
- The MCP SDK is a parameter, not modelled: sessions, connections and the SSE transport.
- The city-table file is a parameter. A document that is not a list is Unreadable: iterating it either finds nothing or raises, so it always ends in None. A list element that is not an object becomes an entry without a name. Subscripting it raises if the scan reaches it before a match, and it is ignored after the first match.
- WeatherInfo.Render: adcodes that are arrays or objects are not rendered. The model takes adcodes to be strings, numbers, null or booleans.
- The response text read on a non-200 weather answer is only logged, and is not modelled.
- The `asyncio.sleep` pauses between events are timing only and are not modelled.
- The unreachable error handlers of `/api/ask` are not modelled. Building the stream cannot raise.
- Concurrency between requests is not modelled. Requests are handled one at a time, in arrival order.
- Logging is not modelled.
- The static and stub routers are outside this model.

## Findings

| source | as written | input that shows it | evidently intended | confidence | as-written member | corrected member |
|---|---|---|---|---|---|---|
| api_router/weather/mcp_agent_ad_router.py:554 | the resource path is `uri.split('://')[1]`, the text between the first and second "://" | provider `amap` lists resource `file://cities`, which is cached as `amap://file://cities` and then requested as `file` | the path is everything after the first "://", the URI the server listed (mcp_server_manager.py:102 builds the cache URI that way) | high; not executed | McpRouter.ResourcePathTruncated | McpRouter.ResourcePathRoundTrip |

=== FILE: common.dfy ===
/** Shared value types: the optional value the source expresses with `None`, and a value-or-error. */
module Common {

  /** A value that may be absent, as Python's `Optional[T]`. */
  datatype Option<+T> = None | Some(value: T) {

    /** The wrapped value, or `default` when absent. */
    function GetOr(default: T): T {
      match this
      case Some(v) => v
      case None => default
    }
  }

  /** A computed value, or the message of the exception raised instead. */
  datatype Result<+T, +E> = Ok(value: T) | Err(error: E)
}

=== FILE: did_auth.dfy ===
/**
 * The DID authentication middleware: the per-request decision procedure
 * (`authenticate_did_request`) and the middleware around it
 * (`did_auth_middleware`), which turns every failure into a JSON error
 * response and hands a freshly issued token back in the `Authorization`
 * response header.
 *
 * Each handler is a pure function from (request, state, environment) to
 * (outcome, new state). The environment carries the current time and the
 * library calls the middleware cannot see into: header parsing, DID document
 * resolution, signature checking, the JWT library and the configured keys.
 */
module DidAuth {
  import opened Common
  import opened Text
  import opened JsonValue
  import opened AuthTime
  import opened Freshness
  import opened ReplayGuard
  import opened Tokens

  /** Paths served without any authentication, compared by exact string equality. */
  const ExemptPaths: seq<string> := [
    "/agents/travel/hotel/api/hotel/create_order/ph",
    "/agents/travel/hotel/api/cancel_order/ph",
    "/agents/travel/hotel/api/get_order_detail/ph",
    "/.well-known/agent-descriptions",
    "/",
    "/favicon.ico"
  ]

  /** What the middleware reads from a request: the URL path, the `Host` header ("" when absent) and `Authorization`. */
  datatype Request = Request(path: string, host: string, authorization: Option<string>)

  /** The DID, nonce and timestamp fields of a DIDWba authorization header. */
  datatype HeaderParts = HeaderParts(did: string, nonce: string, timestamp: string)

  /** The result of the signature check: valid, invalid, or an exception raised by the library. */
  datatype SigCheck = SigValid | SigInvalid | SigRaised

  /**
   * The calls into code the middleware does not define. `extractParts` and
   * `resolveDocument` give `None` when they raise; a resolver that returns
   * nothing is `Some(JNull)`. The keys are the contents of the PEM files, `None`
   * when a file cannot be read.
   */
  datatype Lib = Lib(
    parseIso: string -> IsoParse,
    extractParts: string -> Option<HeaderParts>,
    resolveDocument: string -> Option<Json>,
    verifySignature: (string, Json, string) -> SigCheck,
    jwt: Jwt,
    privateKey: Option<string>,
    publicKey: Option<string>)

  /** One request's view of the world: the current time in microseconds and the library. */
  datatype Env = Env(now: int, lib: Lib)

  // ---------------------------------------------------------------------------
  // Failures and their HTTP statuses
  // ---------------------------------------------------------------------------

  /** Every way a request can be refused. */
  datatype Failure =
    | MissingHeader
    | UnsupportedScheme
    | TimestampInvalid
    | NonceReused
    | DidMissing
    | SignatureRejected
    | ServerConfiguration
    | TokenExpired
    | TokenInvalid
    | InternalError

  /** The status of the HTTP error raised for each failure. */
  function Status(f: Failure): (code: int)
    ensures code == 401 <==> f in {MissingHeader, UnsupportedScheme, TimestampInvalid, NonceReused, DidMissing, TokenExpired}
    ensures code == 403 <==> f in {SignatureRejected, TokenInvalid}
    ensures code == 500 <==> f in {ServerConfiguration, InternalError}
  {
    match f
    case MissingHeader => 401
    case UnsupportedScheme => 401
    case TimestampInvalid => 401
    case NonceReused => 401
    case DidMissing => 401
    case SignatureRejected => 403
    case ServerConfiguration => 500
    case TokenExpired => 401
    case TokenInvalid => 403
    case InternalError => 500
  }

  /** The `detail` text of the HTTP error raised for each failure. */
  function Detail(f: Failure): string {
    match f
    case MissingHeader =>
      "Authorization header missing, you can use tool https://service.agent-network-protocol.com/anp-explorer/ to access the URL"
    case UnsupportedScheme => "Unsupported authorization type"
    case TimestampInvalid => "Invalid or expired timestamp"
    case NonceReused => "Nonce has already been used"
    case DidMissing => "DID not found in authorization"
    case SignatureRejected => "Authentication failed"
    case ServerConfiguration => "Server configuration error"
    case TokenExpired => "Token has expired"
    case TokenInvalid => "Invalid token"
    case InternalError => "Internal server error"
  }

  /** Result of the decision procedure: authenticated, with the token issued if any, or refused. */
  datatype AuthOutcome = Authenticated(token: Option<string>) | Rejected(failure: Failure)

  // ---------------------------------------------------------------------------
  // Domain and scheme
  // ---------------------------------------------------------------------------

  /** The text before the first ':' of `host` contains no ':' and is followed by one, if anything follows. */
  lemma BeforeColon(host: string)
    ensures forall i :: 0 <= i < |Before(host, ":")| ==> Before(host, ":")[i] != ':'
    ensures |Before(host, ":")| < |host| ==> host[|Before(host, ":")|] == ':'
  {
    var d := Before(host, ":");
    forall i | 0 <= i < |d| ensures d[i] != ':' {
      assert !OccursAt(host, ":", i);
      assert host[i..i + 1] == [host[i]];
    }
    if |d| < |host| {
      assert OccursAt(host, ":", |d|);
      assert host[|d|..|d| + 1] == [host[|d|]];
    }
  }

  /** `get_and_validate_domain`: the host with any port removed; the allow-list check is disabled. */
  function HostDomain(host: string): (d: string)
    ensures StartsWith(host, d)
    ensures forall i :: 0 <= i < |d| ==> d[i] != ':'
    ensures |d| < |host| ==> host[|d|] == ':'
  {
    BeforeColon(host);
    Before(host, ":")
  }

  /** The authentication scheme named by an authorization header. */
  datatype Scheme = DidWbaScheme | BearerScheme(token: string) | UnknownScheme

  /**
   * Scheme dispatch on the lower-cased header: "didwba " anywhere in it selects
   * DID authentication and takes precedence; otherwise "bearer " anywhere selects
   * bearer authentication, with the token taken from just after the first
   * case-insensitive "bearer ".
   */
  function Dispatch(h: string): (s: Scheme)
    ensures s == DidWbaScheme <==> Contains(Lower(h), "didwba ")
    ensures s.BearerScheme? <==> !Contains(Lower(h), "didwba ") && Contains(Lower(h), "bearer ")
    ensures s.BearerScheme? ==>
      exists i :: OccursAt(Lower(h), "bearer ", i) && (forall j :: 0 <= j < i ==> !OccursAt(Lower(h), "bearer ", j))
        && s.token == h[i + 7..]
  {
    var lowered := Lower(h);
    if Contains(lowered, "didwba ") then DidWbaScheme
    else if Contains(lowered, "bearer ") then
      var i := Find(lowered, "bearer ").value;
      BearerScheme(h[i + 7..])
    else UnknownScheme
  }

  // ---------------------------------------------------------------------------
  // The two authentication flows
  // ---------------------------------------------------------------------------

  /** The header names a DID whose document resolves, and the library calls the header's signature valid over it. */
  predicate SignatureAccepted(h: string, domain: string, env: Env) {
    && env.lib.extractParts(h).Some?
    && env.lib.extractParts(h).value.did != ""
    && env.lib.resolveDocument(env.lib.extractParts(h).value.did).Some?
    && env.lib.verifySignature(h, env.lib.resolveDocument(env.lib.extractParts(h).value.did).value, domain) == SigValid
  }

  /**
   * `generate_did_auth_token`: re-reads the DID from the header, resolves its
   * document, checks the header signature against it and signs a token for it.
   * A request whose signature is accepted gets a token exactly when a private
   * key is configured; an exception from the header parser, the resolver or
   * the signature check surfaces as an internal error.
   */
  function GenerateToken(h: string, domain: string, env: Env): (r: AuthOutcome)
    ensures r.Authenticated? <==> SignatureAccepted(h, domain, env) && HasKey(env.lib.privateKey)
    ensures r.Authenticated? ==>
      r.token == Some(env.lib.jwt.sign(IssueClaims(env.lib.extractParts(h).value.did, env.now), env.lib.privateKey.value))
    ensures r == Rejected(ServerConfiguration) <==> SignatureAccepted(h, domain, env) && !HasKey(env.lib.privateKey)
    ensures r == Rejected(DidMissing) <==> env.lib.extractParts(h).Some? && env.lib.extractParts(h).value.did == ""
    ensures r == Rejected(SignatureRejected) <==>
      && env.lib.extractParts(h).Some?
      && env.lib.extractParts(h).value.did != ""
      && env.lib.resolveDocument(env.lib.extractParts(h).value.did).Some?
      && env.lib.verifySignature(h, env.lib.resolveDocument(env.lib.extractParts(h).value.did).value, domain) == SigInvalid
    ensures r == Rejected(InternalError) <==>
      || env.lib.extractParts(h).None?
      || (env.lib.extractParts(h).value.did != "" && env.lib.resolveDocument(env.lib.extractParts(h).value.did).None?)
      || (&& env.lib.extractParts(h).value.did != ""
          && env.lib.resolveDocument(env.lib.extractParts(h).value.did).Some?
          && env.lib.verifySignature(h, env.lib.resolveDocument(env.lib.extractParts(h).value.did).value, domain) == SigRaised)
    ensures r.Rejected? ==> r.failure in {DidMissing, SignatureRejected, ServerConfiguration, InternalError}
  {
    match env.lib.extractParts(h)
    case None => Rejected(InternalError)
    case Some(parts) =>
      if parts.did == "" then Rejected(DidMissing)
      else match env.lib.resolveDocument(parts.did)
        case None => Rejected(InternalError)
        case Some(doc) =>
          match env.lib.verifySignature(h, doc, domain)
          case SigRaised => Rejected(InternalError)
          case SigInvalid => Rejected(SignatureRejected)
          case SigValid =>
            match IssueToken(env.lib.jwt, env.lib.privateKey, parts.did, env.now)
            case NoSigningKey => Rejected(ServerConfiguration)
            case Signed(token) => Authenticated(Some(token))
  }

  /** The DID header passes the timestamp check: present, parseable, aware and within the window. */
  predicate TimestampAccepted(parts: HeaderParts, env: Env) {
    parts.timestamp != "" && VerifyTimestamp(parts.timestamp, env.lib.parseIso, env.now) == Fresh
  }

  /**
   * DID authentication: timestamp, then nonce, then signature and token. The
   * nonce is recorded as soon as it is found unused, before the signature is
   * checked.
   */
  function DidFlow(h: string, domain: string, t: NonceTable, env: Env): (r: (AuthOutcome, NonceTable))
    ensures r.1 != t <==>
      env.lib.extractParts(h).Some?
      && TimestampAccepted(env.lib.extractParts(h).value, env)
      && !Recorded(t, env.lib.extractParts(h).value.did, env.lib.extractParts(h).value.nonce)
    ensures r.1 != t ==>
      r.1 == Record(t, env.lib.extractParts(h).value.did, env.lib.extractParts(h).value.nonce, env.now)
      && r.0 == GenerateToken(h, domain, env)
    ensures r.0 == Rejected(NonceReused) <==>
      env.lib.extractParts(h).Some?
      && TimestampAccepted(env.lib.extractParts(h).value, env)
      && Recorded(t, env.lib.extractParts(h).value.did, env.lib.extractParts(h).value.nonce)
    ensures r.0 == Rejected(TimestampInvalid) ==> r.1 == t
  {
    match env.lib.extractParts(h)
    case None => (Rejected(InternalError), t)
    case Some(parts) =>
      if parts.timestamp == "" then (Rejected(TimestampInvalid), t)
      else match VerifyTimestamp(parts.timestamp, env.lib.parseIso, env.now)
        case Crashed => (Rejected(InternalError), t)
        case Stale => (Rejected(TimestampInvalid), t)
        case Fresh =>
          var (verdict, t') := VerifyAndRecord(t, parts.did, parts.nonce, env.now);
          if verdict == NonceAlreadyUsed then (Rejected(NonceReused), t)
          else (GenerateToken(h, domain, env), t')
  }

  /** Bearer authentication: a valid token authenticates without issuing a new one. */
  function BearerFlow(token: string, env: Env): (r: AuthOutcome)
    ensures r == Authenticated(None) <==> VerifyBearer(env.lib.jwt, env.lib.publicKey, token, env.now).BearerValid?
    ensures r == Rejected(TokenExpired) <==> VerifyBearer(env.lib.jwt, env.lib.publicKey, token, env.now) == BearerExpired
    ensures r == Rejected(TokenInvalid) <==> VerifyBearer(env.lib.jwt, env.lib.publicKey, token, env.now) == BearerInvalid
    ensures r == Rejected(ServerConfiguration) <==> !HasKey(env.lib.publicKey)
  {
    match VerifyBearer(env.lib.jwt, env.lib.publicKey, token, env.now)
    case BearerValid(_) => Authenticated(None)
    case BearerExpired => Rejected(TokenExpired)
    case BearerInvalid => Rejected(TokenInvalid)
    case NoVerifyingKey => Rejected(ServerConfiguration)
  }

  // ---------------------------------------------------------------------------
  // The decision procedure and the middleware
  // ---------------------------------------------------------------------------

  /** `if not authorization`: a missing and an empty header are both absent. */
  predicate HasHeader(req: Request) {
    req.authorization.Some? && req.authorization.value != ""
  }

  /**
   * The request consumes a nonce: it is not exempt, carries a DIDWba header whose
   * parts parse and whose timestamp is accepted, and its (DID, nonce) pair is
   * not yet recorded.
   */
  predicate ConsumesNonce(req: Request, t: NonceTable, env: Env) {
    && req.path !in ExemptPaths
    && HasHeader(req)
    && Dispatch(req.authorization.value) == DidWbaScheme
    && env.lib.extractParts(req.authorization.value).Some?
    && TimestampAccepted(env.lib.extractParts(req.authorization.value).value, env)
    && !Recorded(t, env.lib.extractParts(req.authorization.value).value.did,
                 env.lib.extractParts(req.authorization.value).value.nonce)
  }

  /** `authenticate_did_request` on the nonce table `t`. */
  function Authenticate(req: Request, t: NonceTable, env: Env): (r: (AuthOutcome, NonceTable))
    ensures req.path in ExemptPaths ==> r == (Authenticated(None), t)
    ensures req.path !in ExemptPaths && !HasHeader(req) ==> r == (Rejected(MissingHeader), t)
    ensures r.1 != t <==> ConsumesNonce(req, t, env)
    ensures ConsumesNonce(req, t, env) ==>
      var parts := env.lib.extractParts(req.authorization.value).value;
      r.1 == Record(t, parts.did, parts.nonce, env.now)
    ensures r.0.Authenticated? && r.0.token.Some? ==> ConsumesNonce(req, t, env)
    ensures r.0 == Rejected(UnsupportedScheme) <==>
      req.path !in ExemptPaths && HasHeader(req) && Dispatch(req.authorization.value) == UnknownScheme
    ensures req.path !in ExemptPaths && HasHeader(req) && Dispatch(req.authorization.value) == DidWbaScheme ==>
      r == DidFlow(req.authorization.value, HostDomain(req.host), t, env)
    ensures req.path !in ExemptPaths && HasHeader(req) && Dispatch(req.authorization.value).BearerScheme? ==>
      r == (BearerFlow(Dispatch(req.authorization.value).token, env), t)
  {
    if req.path in ExemptPaths then (Authenticated(None), t)
    else if !HasHeader(req) then (Rejected(MissingHeader), t)
    else
      var h := req.authorization.value;
      var domain := HostDomain(req.host);
      match Dispatch(h)
      case DidWbaScheme => DidFlow(h, domain, t, env)
      case BearerScheme(token) => (BearerFlow(token, env), t)
      case UnknownScheme => (Rejected(UnsupportedScheme), t)
  }

  /** An HTTP response: status, JSON body and headers (names lower-cased, as the framework stores them). */
  datatype Response = Response(status: int, body: Json, headers: map<string, string>)

  /** The JSON error response for a failure: its status and `{"detail": ...}`. */
  function ErrorResponse(f: Failure): (resp: Response)
    ensures resp.status == Status(f)
    ensures resp.body == JObj(map["detail" := JStr(Detail(f))])
  {
    Response(Status(f), JObj(map["detail" := JStr(Detail(f))]), map[])
  }

  /**
   * `did_auth_middleware`: the periodic nonce purge runs first, for every
   * request; then the decision procedure. A refusal becomes the JSON error
   * response; otherwise the downstream handler's response is returned, with
   * `Authorization: Bearer <token>` added when a non-empty token was issued.
   * The contract below gives the shape of every answer; which answer each
   * outcome of the decision procedure gets is stated by `HandleOutcome`.
   */
  function Handle(req: Request, g: Guard, env: Env, downstream: Response): (r: (Response, Guard))
    ensures r.1.lastCleanup == if env.now - g.lastCleanup > CleanupInterval then env.now else g.lastCleanup
    ensures forall d, n :: Recorded(g.used, d, n) && !Expired(env.now, g.used[d][n]) ==>
      Recorded(r.1.used, d, n) && r.1.used[d][n] == g.used[d][n]
    ensures req.path in ExemptPaths ==> r.0 == downstream
    ensures req.path !in ExemptPaths && !HasHeader(req) ==> r.0 == ErrorResponse(MissingHeader)
    ensures r.0 == downstream || r.0.status in {401, 403, 500} ||
      (exists token :: token != "" && r.0 == downstream.(headers := downstream.headers["authorization" := "Bearer " + token]))
  {
    var cleaned := CheckAndCleanup(g, env.now);
    var (outcome, used) := Authenticate(req, cleaned.used, env);
    var response :=
      match outcome
      case Rejected(f) => ErrorResponse(f)
      case Authenticated(token) =>
        if token.Some? && token.value != ""
        then downstream.(headers := downstream.headers["authorization" := "Bearer " + token.value])
        else downstream;
    (response, Guard(used, cleaned.lastCleanup))
  }

  /**
   * What the middleware answers, decided by the outcome of the decision
   * procedure on the purged table: a refusal is answered with its JSON error
   * and is not passed on; an authentication that issued a non-empty token gets
   * the downstream response with `Authorization: Bearer <token>` added; any
   * other authentication gets the downstream response unchanged. The state
   * kept is the table the decision procedure left.
   */
  lemma HandleOutcome(req: Request, g: Guard, env: Env, downstream: Response)
    ensures var auth := Authenticate(req, CheckAndCleanup(g, env.now).used, env);
      && Handle(req, g, env, downstream).1.used == auth.1
      && (auth.0.Rejected? ==> Handle(req, g, env, downstream).0 == ErrorResponse(auth.0.failure))
      && (auth.0.Authenticated? && auth.0.token.Some? && auth.0.token.value != "" ==>
            Handle(req, g, env, downstream).0 ==
              downstream.(headers := downstream.headers["authorization" := "Bearer " + auth.0.token.value]))
      && (auth.0.Authenticated? && (auth.0.token.None? || auth.0.token.value == "") ==>
            Handle(req, g, env, downstream).0 == downstream)
  {
  }

  /**
   * A refused request never reaches the downstream handler: when the handler's
   * own status is not an error status, the middleware's response carries the
   * handler's status exactly when the request was authenticated.
   */
  lemma RefusalNotForwarded(req: Request, g: Guard, env: Env, downstream: Response)
    requires downstream.status !in {401, 403, 500}
    ensures Handle(req, g, env, downstream).0.status == downstream.status <==>
      Authenticate(req, CheckAndCleanup(g, env.now).used, env).0.Authenticated?
    ensures Authenticate(req, CheckAndCleanup(g, env.now).used, env).0.Rejected? ==>
      Handle(req, g, env, downstream).0.status == Status(Authenticate(req, CheckAndCleanup(g, env.now).used, env).0.failure)
  {
    var outcome := Authenticate(req, CheckAndCleanup(g, env.now).used, env).0;
    if outcome.Rejected? {
      var f := outcome.failure;
      assert Status(f) in {401, 403, 500};
    }
  }
}

=== FILE: did_auth_props.dfy ===
/**
 * Properties of the DID authentication middleware that span several requests
 * or several steps of one request: the order of the checks, replay rejection
 * across any run of requests, and the issued token being accepted back as a
 * bearer credential for its lifetime.
 */
module DidAuthProperties {
  import opened Common
  import opened Text
  import opened JsonValue
  import opened AuthTime
  import opened Freshness
  import opened ReplayGuard
  import opened Tokens
  import opened DidAuth

  // ---------------------------------------------------------------------------
  // Order of the checks within one request
  // ---------------------------------------------------------------------------

  /**
   * The timestamp is checked before the nonce: a DID request whose timestamp is
   * missing, stale or unparseable is refused with 401 and leaves the nonce table
   * as it was; only an offset-less timestamp escapes as a 500.
   */
  lemma RejectedTimestampKeepsTable(req: Request, t: NonceTable, env: Env)
    requires req.path !in ExemptPaths && HasHeader(req)
    requires Dispatch(req.authorization.value) == DidWbaScheme
    requires env.lib.extractParts(req.authorization.value).Some?
    requires !TimestampAccepted(env.lib.extractParts(req.authorization.value).value, env)
    ensures Authenticate(req, t, env).1 == t
    ensures var ts := env.lib.extractParts(req.authorization.value).value.timestamp;
      Authenticate(req, t, env).0 ==
        if ts != "" && VerifyTimestamp(ts, env.lib.parseIso, env.now) == Crashed
        then Rejected(InternalError)
        else Rejected(TimestampInvalid)
  {
  }

  /**
   * The nonce is recorded before the signature is checked: a request refused
   * with 403 for its signature has still used up its nonce.
   */
  lemma SignatureFailureConsumesNonce(req: Request, t: NonceTable, env: Env)
    requires ConsumesNonce(req, t, env)
    requires var h := req.authorization.value;
      var p := env.lib.extractParts(h).value;
      && p.did != ""
      && env.lib.resolveDocument(p.did).Some?
      && env.lib.verifySignature(h, env.lib.resolveDocument(p.did).value, HostDomain(req.host)) == SigInvalid
    ensures Authenticate(req, t, env).0 == Rejected(SignatureRejected)
    ensures Status(Authenticate(req, t, env).0.failure) == 403
    ensures var p := env.lib.extractParts(req.authorization.value).value;
      Recorded(Authenticate(req, t, env).1, p.did, p.nonce)
  {
  }

  /**
   * A token is issued only to a request that consumed its nonce, and it carries
   * the header's DID as subject, the request time as issued-at and an expiry
   * 300 seconds later.
   */
  lemma IssuedTokenClaims(req: Request, t: NonceTable, env: Env)
    requires Authenticate(req, t, env).0.Authenticated?
    requires Authenticate(req, t, env).0.token.Some?
    ensures ConsumesNonce(req, t, env)
    ensures var p := env.lib.extractParts(req.authorization.value).value;
      && p.did != ""
      && HasKey(env.lib.privateKey)
      && Authenticate(req, t, env).0.token.value == env.lib.jwt.sign(IssueClaims(p.did, env.now), env.lib.privateKey.value)
      && IssueClaims(p.did, env.now).sub == p.did
      && IssueClaims(p.did, env.now).exp == NumericDate(env.now) + 300
  {
  }

  /**
   * The success path: a DID request that consumes its nonce, whose signature is
   * accepted over the resolved document, on a server with a private key, is
   * authenticated with a token signed over its DID and the request time; the
   * nonce is recorded, and the middleware passes the request on and hands the
   * token back as `Authorization: Bearer <token>`.
   */
  lemma DidRequestIssuesToken(req: Request, g: Guard, env: Env, downstream: Response)
    requires Sound(env.lib.jwt)
    requires ConsumesNonce(req, CheckAndCleanup(g, env.now).used, env)
    requires SignatureAccepted(req.authorization.value, HostDomain(req.host), env)
    requires HasKey(env.lib.privateKey)
    ensures var p := env.lib.extractParts(req.authorization.value).value;
      var token := env.lib.jwt.sign(IssueClaims(p.did, env.now), env.lib.privateKey.value);
      var t := CheckAndCleanup(g, env.now).used;
      && Authenticate(req, t, env) == (Authenticated(Some(token)), Record(t, p.did, p.nonce, env.now))
      && Handle(req, g, env, downstream).0 == downstream.(headers := downstream.headers["authorization" := "Bearer " + token])
  {
    var p := env.lib.extractParts(req.authorization.value).value;
    var token := env.lib.jwt.sign(IssueClaims(p.did, env.now), env.lib.privateKey.value);
    assert token != "";
    HandleOutcome(req, g, env, downstream);
  }

  /**
   * A request with a DIDWba header that is refused for any reason is answered
   * with the error alone: no token in any header, the downstream handler not
   * consulted.
   */
  lemma DidRefusalAnswered(req: Request, g: Guard, env: Env, downstream: Response)
    requires req.path !in ExemptPaths && HasHeader(req)
    requires Dispatch(req.authorization.value) == DidWbaScheme
    requires !SignatureAccepted(req.authorization.value, HostDomain(req.host), env)
    ensures Authenticate(req, CheckAndCleanup(g, env.now).used, env).0.Rejected?
    ensures Handle(req, g, env, downstream).0 == ErrorResponse(Authenticate(req, CheckAndCleanup(g, env.now).used, env).0.failure)
  {
    HandleOutcome(req, g, env, downstream);
  }

  // ---------------------------------------------------------------------------
  // The issued token as a bearer credential
  // ---------------------------------------------------------------------------

  /** A space-free token sent as "Bearer <token>" is dispatched to bearer authentication with that token. */
  lemma BearerHeaderDispatch(token: string)
    requires ' ' !in token
    ensures Dispatch("Bearer " + token) == BearerScheme(token)
  {
    var h := "Bearer " + token;
    LowerAppend("Bearer ", token);
    var low := Lower(h);
    assert Lower("Bearer ") == "bearer ";
    assert low == "bearer " + Lower(token);
    forall k | 7 <= k < |low| ensures low[k] != ' ' {
      assert h[k] == token[k - 7];
    }
    forall j ensures !OccursAt(low, "didwba ", j) {
      if 0 <= j && j + 7 <= |low| {
        if j == 0 {
          assert low[j..j + 7][0] == 'b';
        } else {
          assert low[j..j + 7][6] == low[j + 6];
        }
      }
    }
    assert !Contains(low, "didwba ");
    assert OccursAt(low, "bearer ", 0);
    assert Find(low, "bearer ") == Some(0);
    assert h[7..] == token;
  }

  /**
   * Round trip through the response header: the token handed back after a
   * successful DID authentication at `issued`, sent on a later request as
   * "Bearer <token>", authenticates it (without a new token and without touching
   * the nonce table) for 299 seconds, and is refused as expired (401) from 300
   * seconds on, provided the configured key pair matches.
   */
  lemma IssuedTokenAuthenticates(first: Request, t: NonceTable, lib: Lib, issued: int,
                                 later: Request, t': NonceTable, checked: int)
    requires Sound(lib.jwt) && HasKey(lib.privateKey) && HasKey(lib.publicKey)
    requires lib.jwt.pairs(lib.privateKey.value, lib.publicKey.value)
    requires Authenticate(first, t, Env(issued, lib)).0.Authenticated?
    requires Authenticate(first, t, Env(issued, lib)).0.token.Some?
    requires later.path !in ExemptPaths
    requires later.authorization == Some("Bearer " + Authenticate(first, t, Env(issued, lib)).0.token.value)
    ensures issued <= checked < issued + 299 * MicrosPerSecond ==>
      Authenticate(later, t', Env(checked, lib)) == (Authenticated(None), t')
    ensures checked >= issued + 300 * MicrosPerSecond ==>
      Authenticate(later, t', Env(checked, lib)) == (Rejected(TokenExpired), t')
  {
    var env := Env(issued, lib);
    IssuedTokenClaims(first, t, env);
    var did := lib.extractParts(first.authorization.value).value.did;
    var token := Authenticate(first, t, env).0.token.value;
    assert token == lib.jwt.sign(IssueClaims(did, issued), lib.privateKey.value);
    assert ' ' !in token;
    BearerHeaderDispatch(token);
    TokenLifetime(lib.jwt, lib.privateKey.value, lib.publicKey.value, did, issued, checked);
  }

  /**
   * A bearer token the library does not accept under the configured public key
   * (forged, tampered, or not a token at all) is refused with 403 and leaves
   * the nonce table alone; without a public key every bearer request is a 500.
   */
  lemma ForgedBearerRefused(req: Request, t: NonceTable, env: Env, token: string)
    requires req.path !in ExemptPaths
    requires ' ' !in token
    requires req.authorization == Some("Bearer " + token)
    ensures HasKey(env.lib.publicKey) && env.lib.jwt.verify(token, env.lib.publicKey.value).None? ==>
      Authenticate(req, t, env) == (Rejected(TokenInvalid), t) && Status(TokenInvalid) == 403
    ensures !HasKey(env.lib.publicKey) ==>
      Authenticate(req, t, env) == (Rejected(ServerConfiguration), t) && Status(ServerConfiguration) == 500
  {
    BearerHeaderDispatch(token);
  }

  /**
   * A token signed with a private key that does not pair with the configured
   * public key is refused as invalid (403) at whatever time it is presented,
   * even if the rest of its claims were issued by this server's rules.
   */
  lemma ForeignKeyTokenRefused(req: Request, t: NonceTable, lib: Lib, now: int, foreign: string, did: string, issued: int)
    requires Sound(lib.jwt) && HasKey(lib.publicKey) && foreign != ""
    requires !lib.jwt.pairs(foreign, lib.publicKey.value)
    requires req.path !in ExemptPaths
    requires req.authorization == Some("Bearer " + lib.jwt.sign(IssueClaims(did, issued), foreign))
    ensures Authenticate(req, t, Env(now, lib)) == (Rejected(TokenInvalid), t)
  {
    var token := lib.jwt.sign(IssueClaims(did, issued), foreign);
    assert ' ' !in token;
    BearerHeaderDispatch(token);
    ForeignKeyRejected(lib.jwt, foreign, lib.publicKey.value, did, issued, now);
  }

  // ---------------------------------------------------------------------------
  // Replay rejection across a run of requests
  // ---------------------------------------------------------------------------

  /** A request together with the time the middleware handles it. */
  datatype Arrival = Arrival(req: Request, now: int)

  /** The response handed downstream; the middleware state does not depend on it. */
  const Downstream: Response := Response(200, JNull, map[])

  /** The middleware state after handling `arrivals` in order, starting from `g`. */
  function Run(g: Guard, arrivals: seq<Arrival>, lib: Lib): Guard
    decreases |arrivals|
  {
    if arrivals == [] then g
    else Run(Handle(arrivals[0].req, g, Env(arrivals[0].now, lib), Downstream).1, arrivals[1..], lib)
  }

  /** The pair (did, nonce) is recorded with time `at`. */
  predicate Holds(g: Guard, did: string, nonce: string, at: int) {
    Recorded(g.used, did, nonce) && g.used[did][nonce] == at
  }

  /** Handling any request less than six minutes after `at` keeps a record made at `at`. */
  lemma StepPreserves(g: Guard, a: Arrival, lib: Lib, did: string, nonce: string, at: int)
    requires Holds(g, did, nonce, at)
    requires a.now - at <= NonceWindow
    ensures Holds(Handle(a.req, g, Env(a.now, lib), Downstream).1, did, nonce, at)
  {
  }

  /** A record made at `at` survives any run of requests handled within six minutes of it. */
  lemma {:induction false} RunPreserves(g: Guard, arrivals: seq<Arrival>, lib: Lib, did: string, nonce: string, at: int)
    requires Holds(g, did, nonce, at)
    requires forall k :: 0 <= k < |arrivals| ==> arrivals[k].now - at <= NonceWindow
    ensures Holds(Run(g, arrivals, lib), did, nonce, at)
    decreases |arrivals|
  {
    if arrivals != [] {
      StepPreserves(g, arrivals[0], lib, did, nonce, at);
      RunPreserves(Handle(arrivals[0].req, g, Env(arrivals[0].now, lib), Downstream).1, arrivals[1..], lib, did, nonce, at);
    }
  }

  /**
   * No replay: once a DID request has consumed its nonce at `first`, the same
   * request sent again at `second` is refused with 401, however many other
   * requests were handled in between (none of them later than `second`): either
   * its timestamp has left the five-minute window, or it is still inside it, and
   * then the nonce, younger than the six-minute purge age, is still recorded.
   */
  lemma NoReplay(g0: Guard, req: Request, lib: Lib, first: int, between: seq<Arrival>, second: int)
    requires ConsumesNonce(req, CheckAndCleanup(g0, first).used, Env(first, lib))
    requires forall k :: 0 <= k < |between| ==> between[k].now <= second
    ensures var g := Run(Handle(req, g0, Env(first, lib), Downstream).1, between, lib);
      var outcome := Authenticate(req, CheckAndCleanup(g, second).used, Env(second, lib)).0;
      && (outcome == Rejected(TimestampInvalid) || outcome == Rejected(NonceReused))
      && Handle(req, g, Env(second, lib), Downstream).0.status == 401
  {
    var h := req.authorization.value;
    var p := lib.extractParts(h).value;
    var g1 := Handle(req, g0, Env(first, lib), Downstream).1;
    assert Holds(g1, p.did, p.nonce, first);
    var g := Run(g1, between, lib);
    var ts := lib.parseIso(IsoText(p.timestamp)).micros;
    assert ts <= first && first - ts <= TimestampWindow;
    if TimestampAccepted(p, Env(second, lib)) {
      RunPreserves(g1, between, lib, p.did, p.nonce, first);
      CheckAndCleanupKeepsYoung(g, second, p.did, p.nonce);
      assert Recorded(CheckAndCleanup(g, second).used, p.did, p.nonce);
    } else {
      RejectedTimestampKeepsTable(req, CheckAndCleanup(g, second).used, Env(second, lib));
    }
  }

  /**
   * Nonce reuse by any request: once a DID request has consumed the pair
   * (did, nonce) at `first`, every later DIDWba request carrying the same DID
   * and nonce with a timestamp that passes the check, arriving within the
   * six-minute nonce window, is refused as a reused nonce (401), whatever else
   * its header holds and however many requests were handled in between.
   */
  lemma NonceReuseRefused(g0: Guard, req: Request, lib: Lib, first: int, between: seq<Arrival>,
                          req2: Request, second: int)
    requires ConsumesNonce(req, CheckAndCleanup(g0, first).used, Env(first, lib))
    requires second - first <= NonceWindow
    requires forall k :: 0 <= k < |between| ==> between[k].now <= second
    requires req2.path !in ExemptPaths && HasHeader(req2)
    requires Dispatch(req2.authorization.value) == DidWbaScheme
    requires lib.extractParts(req2.authorization.value).Some?
    requires lib.extractParts(req2.authorization.value).value.did == lib.extractParts(req.authorization.value).value.did
    requires lib.extractParts(req2.authorization.value).value.nonce == lib.extractParts(req.authorization.value).value.nonce
    requires TimestampAccepted(lib.extractParts(req2.authorization.value).value, Env(second, lib))
    ensures var g := Run(Handle(req, g0, Env(first, lib), Downstream).1, between, lib);
      && Authenticate(req2, CheckAndCleanup(g, second).used, Env(second, lib)).0 == Rejected(NonceReused)
      && Handle(req2, g, Env(second, lib), Downstream).0.status == 401
  {
    var p := lib.extractParts(req.authorization.value).value;
    var g1 := Handle(req, g0, Env(first, lib), Downstream).1;
    assert Holds(g1, p.did, p.nonce, first);
    var g := Run(g1, between, lib);
    RunPreserves(g1, between, lib, p.did, p.nonce, first);
    CheckAndCleanupKeepsYoung(g, second, p.did, p.nonce);
    assert Recorded(CheckAndCleanup(g, second).used, p.did, p.nonce);
    HandleOutcome(req2, g, Env(second, lib), Downstream);
  }
}

=== FILE: event_stream.dfy ===
/**
 * The natural-language endpoint: a reply is streamed as server-sent events, one
 * `data:` event per whitespace-separated word, closed by a `[DONE]` event.
 *
 * The pause between events is timing only and is not part of the model.
 */
module EventStream {
  import opened Common
  import opened Text

  /** The payload of the closing event. */
  const DonePayload: string := "[DONE]"

  /** One server-sent event carrying `payload`: a `data:` line followed by a blank line. */
  function Frame(payload: string): (f: string)
    ensures |f| == |payload| + 8
    ensures StartsWith(f, "data: ")
  {
    "data: " + payload + "\n\n"
  }

  /** The closing event. */
  const Done: string := Frame(DonePayload)

  /** `stream_response`: the events the generator yields, in order. */
  function StreamResponse(response: string): (frames: seq<string>)
    ensures |frames| == |Words(response)| + 1
  {
    var ws := Words(response);
    seq(|ws|, k requires 0 <= k < |ws| => Frame(ws[k])) + [Done]
  }

  /** The response body as sent: the events one after another. */
  function Wire(frames: seq<string>): string
    decreases |frames|
  {
    if frames == [] then "" else frames[0] + Wire(frames[1..])
  }

  /**
   * What an event-stream client reads from the blocks of a body (the pieces
   * between blank lines): the payload of each `data:` block, up to the first
   * `[DONE]`; blocks of any other kind are skipped.
   */
  function Received(blocks: seq<string>): (payloads: seq<string>)
    ensures |payloads| <= |blocks|
    decreases |blocks|
  {
    if blocks == [] then []
    else if !StartsWith(blocks[0], "data: ") then Received(blocks[1..])
    else if blocks[0][6..] == DonePayload then []
    else [blocks[0][6..]] + Received(blocks[1..])
  }

  /** A client reading a body: split at blank lines, then read the `data:` blocks. */
  function Read(body: string): seq<string> {
    Received(Split(body, "\n\n"))
  }

  // ---------------------------------------------------------------------------
  // Properties
  // ---------------------------------------------------------------------------

  /** Word events come first, in input order, each carrying one word; the stream always ends with `[DONE]`. */
  lemma StreamShape(response: string)
    ensures var frames := StreamResponse(response);
      && (forall k :: 0 <= k < |Words(response)| ==> frames[k] == Frame(Words(response)[k]))
      && frames[|frames| - 1] == Done
  {
  }

  /** An empty or all-whitespace reply is streamed as the closing event alone. */
  lemma BlankReplyOnlyDone(response: string)
    ensures StreamResponse(response) == [Done] <==> forall i :: 0 <= i < |response| ==> IsSpace(response[i])
  {
    WordsEmptyIff(response);
    if StreamResponse(response) == [Done] {
      assert |Words(response)| == 0;
    }
  }

  /** `[DONE]` is sent only at the end, unless the reply itself contains the word `[DONE]`. */
  lemma DoneOnlyAtEnd(response: string, k: nat)
    requires k < |StreamResponse(response)|
    ensures StreamResponse(response)[k] == Done <==> k == |Words(response)| || Words(response)[k] == DonePayload
  {
    var frames := StreamResponse(response);
    if k < |Words(response)| && frames[k] == Done {
      var w := Words(response)[k];
      assert Frame(w) == Frame(DonePayload);
      assert Frame(w)[6..|w| + 6] == w;
    }
  }

  /** The first blank line of an event whose payload has no line break is the one that ends it. */
  lemma FindBlankLine(payload: string, rest: string)
    requires '\n' !in payload
    ensures Find(Frame(payload) + rest, "\n\n") == Some(|payload| + 6)
  {
    var f := "data: " + payload;
    var s := Frame(payload) + rest;
    assert s == f + "\n\n" + rest;
    assert s[|f|..|f| + 2] == "\n\n";
    assert OccursAt(s, "\n\n", |f|);
    forall j | 0 <= j < |f| ensures !OccursAt(s, "\n\n", j) {
      assert s[j] == f[j];
      if j >= 6 {
        assert f[j] == payload[j - 6];
      }
    }
  }

  /** Splitting a run of events at blank lines gives back each event's `data:` block, then an empty tail. */
  lemma {:induction false} SplitWire(payloads: seq<string>)
    requires forall k :: 0 <= k < |payloads| ==> '\n' !in payloads[k]
    ensures Split(Wire(seq(|payloads|, k requires 0 <= k < |payloads| => Frame(payloads[k]))), "\n\n")
      == seq(|payloads|, k requires 0 <= k < |payloads| => "data: " + payloads[k]) + [""]
    decreases |payloads|
  {
    var frames := seq(|payloads|, k requires 0 <= k < |payloads| => Frame(payloads[k]));
    var blocks := seq(|payloads|, k requires 0 <= k < |payloads| => "data: " + payloads[k]);
    if payloads == [] {
      assert Find("", "\n\n") == None;
    } else {
      var p := payloads[0];
      var tail := payloads[1..];
      var rest := Wire(frames[1..]);
      assert frames[1..] == seq(|tail|, k requires 0 <= k < |tail| => Frame(tail[k]));
      assert blocks[1..] == seq(|tail|, k requires 0 <= k < |tail| => "data: " + tail[k]);
      SplitWire(tail);
      FindBlankLine(p, rest);
      var s := Wire(frames);
      assert s == Frame(p) + rest;
      assert s[..|p| + 6] == "data: " + p;
      assert s[|p| + 8..] == rest;
      assert blocks == [blocks[0]] + blocks[1..];
    }
  }

  /** Reading `data:` blocks whose payloads are none of them `[DONE]`, followed by `[DONE]`, gives the payloads. */
  lemma {:induction false} ReceivedPayloads(payloads: seq<string>, after: seq<string>)
    requires forall k :: 0 <= k < |payloads| ==> payloads[k] != DonePayload
    ensures Received(seq(|payloads|, k requires 0 <= k < |payloads| => "data: " + payloads[k]) + ["data: " + DonePayload] + after)
      == payloads
    decreases |payloads|
  {
    var blocks := seq(|payloads|, k requires 0 <= k < |payloads| => "data: " + payloads[k]);
    var all := blocks + ["data: " + DonePayload] + after;
    if payloads == [] {
      assert all[0] == "data: " + DonePayload;
      assert all[0][6..] == DonePayload;
    } else {
      var tail := payloads[1..];
      var tailBlocks := seq(|tail|, k requires 0 <= k < |tail| => "data: " + tail[k]);
      assert all[0] == "data: " + payloads[0];
      assert all[0][6..] == payloads[0];
      assert all[1..] == tailBlocks + ["data: " + DonePayload] + after;
      ReceivedPayloads(tail, after);
      assert payloads == [payloads[0]] + tail;
    }
  }

  /** Words carry no whitespace, so no line break either. */
  lemma WordsHaveNoLineBreak(response: string)
    ensures forall k :: 0 <= k < |Words(response)| ==> '\n' !in Words(response)[k]
  {
    forall k | 0 <= k < |Words(response)| ensures '\n' !in Words(response)[k] {
      var w := Words(response)[k];
      assert IsWord(w);
      assert forall i :: 0 <= i < |w| ==> w[i] != '\n';
    }
  }

  /**
   * Round trip: a client reading the streamed body gets exactly the words of
   * the reply, in order, provided none of them is `[DONE]`; joining them with
   * single spaces and splitting again gives the same words.
   */
  lemma StreamRoundTrip(response: string)
    requires forall k :: 0 <= k < |Words(response)| ==> Words(response)[k] != DonePayload
    ensures Read(Wire(StreamResponse(response))) == Words(response)
    ensures Words(Join(Read(Wire(StreamResponse(response))), " ")) == Words(response)
  {
    var ws := Words(response);
    var all := ws + [DonePayload];
    WordsHaveNoLineBreak(response);
    assert forall k :: 0 <= k < |all| ==> '\n' !in all[k];
    SplitWire(all);
    var frames := seq(|all|, k requires 0 <= k < |all| => Frame(all[k]));
    assert frames == StreamResponse(response);
    var blocks := seq(|ws|, k requires 0 <= k < |ws| => "data: " + ws[k]);
    assert seq(|all|, k requires 0 <= k < |all| => "data: " + all[k]) + [""] == blocks + ["data: " + DonePayload] + [""];
    ReceivedPayloads(ws, [""]);
    WordsJoin(ws);
  }

  // ---------------------------------------------------------------------------
  // The endpoint
  // ---------------------------------------------------------------------------

  /** The fixed answer of the endpoint. */
  const FixedMessage: string :=
    "Please use structured " + "interface to query " + "weather information, " + "natural language "
    + "queries are not " + "supported yet, will " + "be added later."

  /** A streamed HTTP response. */
  datatype StreamingReply = StreamingReply(mediaType: string, frames: seq<string>)

  /** `ask_weather_question`: whatever the request holds, the fixed message is streamed as an event stream. */
  function AskWeatherQuestion(requestBody: string): (r: StreamingReply)
    ensures r.mediaType == "text/event-stream"
    ensures |r.frames| == |Words(FixedMessage)| + 1
  {
    StreamingReply("text/event-stream", StreamResponse(FixedMessage))
  }

  /** The fixed message has no `[` in it. */
  lemma FixedMessageHasNoBracket()
    ensures '[' !in FixedMessage
  {
    assert '[' !in "Please use structured ";
    assert '[' !in "interface to query ";
    assert '[' !in "weather information, ";
    assert '[' !in "natural language ";
    assert '[' !in "queries are not ";
    assert '[' !in "supported yet, will ";
    assert '[' !in "be added later.";
  }

  /** A text without `[` has no word `[DONE]`. */
  lemma NoDoneWord(s: string)
    requires '[' !in s
    ensures forall k :: 0 <= k < |Words(s)| ==> Words(s)[k] != DonePayload
  {
    forall k | 0 <= k < |Words(s)| ensures Words(s)[k] != DonePayload {
      WordsFromText(s, k);
      assert |Words(s)[k]| > 0 && Words(s)[k][0] != '[';
    }
  }

  /** Every character of a word is a character of the text it was split from. */
  lemma {:induction false} WordsFromText(s: string, k: nat)
    requires k < |Words(s)|
    ensures forall i :: 0 <= i < |Words(s)[k]| ==> Words(s)[k][i] in s
    decreases |s|
  {
    if IsSpace(s[0]) {
      WordsFromText(s[1..], k);
      assert forall c :: c in s[1..] ==> c in s;
    } else {
      var n := RunLength(s);
      if k == 0 {
        assert Words(s)[0] == s[..n];
      } else {
        WordsFromText(s[n..], k - 1);
        assert forall c :: c in s[n..] ==> c in s;
      }
    }
  }

  /** A client of the endpoint reads the words of the fixed message, whatever it sent. */
  lemma AskReadsFixedMessage(requestBody: string)
    ensures Read(Wire(AskWeatherQuestion(requestBody).frames)) == Words(FixedMessage)
  {
    FixedMessageHasNoBracket();
    NoDoneWord(FixedMessage);
    StreamRoundTrip(FixedMessage);
  }
}

=== FILE: freshness.dfy ===
/**
 * Time constants of the authentication layer and the timestamp freshness check
 * applied to the timestamp carried by a DID authorization header.
 *
 * Time is an integer count of microseconds since the epoch, the resolution of
 * Python's `datetime`, so the strict comparisons of the source stay exact.
 */
module AuthTime {

  const MicrosPerSecond: int := 1_000_000

  /** Timestamps older than this many minutes are refused. */
  const TimestampExpirationMinutes: int := 5

  /** Recorded nonces older than this many minutes are purged. */
  const NonceExpirationMinutes: int := 6

  /** Minimum number of seconds between two purges of the nonce table. */
  const CleanupIntervalSeconds: int := 60

  /** Lifetime of an issued bearer token, in seconds. */
  const TokenLifetimeSeconds: int := 300

  const TimestampWindow: int := TimestampExpirationMinutes * 60 * MicrosPerSecond
  const NonceWindow: int := NonceExpirationMinutes * 60 * MicrosPerSecond
  const CleanupInterval: int := CleanupIntervalSeconds * MicrosPerSecond
}

module Freshness {
  import opened Text
  import opened AuthTime

  /**
   * What `datetime.fromisoformat` yields for a timestamp text: a parse error, a
   * datetime without a UTC offset, or an instant (in microseconds) with one.
   */
  datatype IsoParse = Malformed | Naive | Aware(micros: int)

  /**
   * Outcome of the freshness check. `Crashed` is the case where comparing an
   * offset-less datetime with the aware current time raises a `TypeError`,
   * which `verify_timestamp` does not catch.
   */
  datatype TimestampCheck = Fresh | Stale | Crashed

  /** The text handed to the ISO parser: every 'Z' becomes "+00:00". */
  function IsoText(text: string): string {
    ReplaceChar(text, 'Z', "+00:00")
  }

  /** `verify_timestamp`: the timestamp must not be in the future and at most five minutes old. */
  function VerifyTimestamp(text: string, parse: string -> IsoParse, now: int): (r: TimestampCheck)
    ensures r == Fresh <==>
      parse(IsoText(text)).Aware?
      && parse(IsoText(text)).micros <= now
      && now - parse(IsoText(text)).micros <= TimestampWindow
    ensures r == Crashed <==> parse(IsoText(text)).Naive?
    ensures parse(IsoText(text)).Malformed? ==> r == Stale
  {
    match parse(IsoText(text))
    case Malformed => Stale
    case Naive => Crashed
    case Aware(ts) =>
      if ts > now then Stale
      else if now - ts > TimestampWindow then Stale
      else Fresh
  }

  /** A timestamp exactly five minutes old is still accepted; one microsecond more is not. */
  lemma BoundaryOfWindow(text: string, parse: string -> IsoParse, ts: int)
    requires parse(IsoText(text)) == Aware(ts)
    ensures VerifyTimestamp(text, parse, ts) == Fresh
    ensures VerifyTimestamp(text, parse, ts + 5 * 60 * 1_000_000) == Fresh
    ensures VerifyTimestamp(text, parse, ts + 5 * 60 * 1_000_000 + 1) == Stale
    ensures VerifyTimestamp(text, parse, ts - 1) == Stale
  {
  }

  /** Freshness only depends on the age of the timestamp: any instant between it and a fresh check is fresh too. */
  lemma FreshInBetween(text: string, parse: string -> IsoParse, now: int, earlier: int)
    requires VerifyTimestamp(text, parse, now) == Fresh
    requires parse(IsoText(text)).micros <= earlier <= now
    ensures VerifyTimestamp(text, parse, earlier) == Fresh
  {
  }

  /**
   * A trailing 'Z' is handed to the parser as the explicit offset "+00:00",
   * so "...Z" and "...+00:00" denote the same instant.
   */
  lemma {:induction false} TrailingZIsUtc(body: string)
    requires 'Z' !in body
    ensures IsoText(body + "Z") == body + "+00:00"
    ensures IsoText(body + "+00:00") == body + "+00:00"
  {
    ReplaceCharAppend(body, "Z", 'Z', "+00:00");
    assert ReplaceChar("Z", 'Z', "+00:00") == "+00:00" + ReplaceChar("", 'Z', "+00:00");
    ReplaceCharAppend(body, "+00:00", 'Z', "+00:00");
    assert 'Z' !in "+00:00";
  }
}

=== FILE: json.dfy ===
/** JSON values as the routers handle them, with Python's truthiness rules. */
module JsonValue {
  import opened Common

  /** A decoded JSON document. Numbers are integers; floating point is not modelled. */
  datatype Json =
    | JNull
    | JBool(b: bool)
    | JNum(n: int)
    | JStr(s: string)
    | JArr(items: seq<Json>)
    | JObj(fields: map<string, Json>)

  /** Python's `bool(v)` for the decoded value: None, False, 0, "", [] and {} are false. */
  predicate Truthy(j: Json) {
    match j
    case JNull => false
    case JBool(b) => b
    case JNum(n) => n != 0
    case JStr(s) => s != ""
    case JArr(items) => items != []
    case JObj(fields) => fields != map[]
  }

  /** `d.get(key, default)` on a decoded object. */
  function GetOr(d: map<string, Json>, key: string, default: Json): (r: Json)
    ensures key in d ==> r == d[key]
    ensures key !in d ==> r == default
  {
    if key in d then d[key] else default
  }

  /** `d.get(key)`: an absent key reads as `None`. */
  function Get(d: map<string, Json>, key: string): (r: Json)
    ensures key !in d ==> r == JNull
  {
    GetOr(d, key, JNull)
  }

  /** The member `key` of an object, `None` when it is absent or the value is not an object. */
  function Field(j: Json, key: string): (r: Json)
    ensures j.JObj? && key in j.fields ==> r == j.fields[key]
    ensures !j.JObj? ==> r == JNull
  {
    if j.JObj? then Get(j.fields, key) else JNull
  }
}

=== FILE: mcp_router.dfy ===
/**
 * The MCP agent-description router: the providers listing, the per-provider
 * description, tool calls in JSON-RPC 2.0 or legacy shape, and resource reads.
 *
 * The MCP SDK session is a parameter (`Sdk`): whether the SDK is installed,
 * what a server answers to a tool call or a resource read, and how a text
 * content item parses as JSON.
 */
module McpRouter {
  import opened Common
  import opened Text
  import opened JsonValue
  import opened ProviderRegistry

  // ---------------------------------------------------------------------------
  // The providers listing
  // ---------------------------------------------------------------------------

  /** Some tool in `tools` has provider `p`. */
  predicate Offers(tools: seq<ToolInfo>, p: string) {
    exists k :: 0 <= k < |tools| && tools[k].provider == p
  }

  lemma OffersAppend(prefix: seq<ToolInfo>, t: ToolInfo, p: string)
    ensures Offers(prefix + [t], p) <==> Offers(prefix, p) || t.provider == p
  {
    var tools := prefix + [t];
    if Offers(tools, p) && !Offers(prefix, p) {
      var k :| 0 <= k < |tools| && tools[k].provider == p;
      if k < |prefix| {
        assert prefix[k].provider == p;
      }
    }
    if Offers(prefix, p) {
      var k :| 0 <= k < |prefix| && prefix[k].provider == p;
      assert tools[k].provider == p;
    }
    if t.provider == p {
      assert tools[|prefix|].provider == p;
    }
  }

  /** The distinct non-empty providers of `tools`, in order of first appearance. */
  function Providers(tools: seq<ToolInfo>): (ps: seq<string>)
    ensures forall i, j :: 0 <= i < j < |ps| ==> ps[i] != ps[j]
    ensures forall p :: p in ps <==> p != "" && Offers(tools, p)
    decreases |tools|
  {
    if tools == [] then []
    else
      var prefix := tools[..|tools| - 1];
      var t := tools[|tools| - 1];
      assert tools == prefix + [t];
      var earlier := Providers(prefix);
      assert forall q :: Offers(tools, q) <==> Offers(prefix, q) || q == t.provider by {
        forall q ensures Offers(tools, q) <==> Offers(prefix, q) || q == t.provider {
          OffersAppend(prefix, t, q);
        }
      }
      if t.provider != "" && t.provider !in earlier then earlier + [t.provider] else earlier
  }

  /**
   * The tools of provider `p`, in cache order: every copy of a tool of `p` is
   * kept, every other tool dropped.
   */
  function ToolsOf(tools: seq<ToolInfo>, p: string): (r: seq<ToolInfo>)
    ensures |r| <= |tools|
    ensures forall t :: t in r <==> t in tools && t.provider == p
    decreases |tools|
  {
    if tools == [] then []
    else
      var prefix := tools[..|tools| - 1];
      var t := tools[|tools| - 1];
      assert tools == prefix + [t];
      ToolsOf(prefix, p) + (if t.provider == p then [t] else [])
  }

  /** Duplicates are kept: each tool of `p` occurs in the filtered list as often as in the cache. */
  lemma {:induction false} ToolsOfKeepsCopies(tools: seq<ToolInfo>, p: string)
    ensures forall t :: multiset(ToolsOf(tools, p))[t] == if t.provider == p then multiset(tools)[t] else 0
    decreases |tools|
  {
    if tools != [] {
      var prefix := tools[..|tools| - 1];
      var t := tools[|tools| - 1];
      assert tools == prefix + [t];
      assert multiset(tools) == multiset(prefix) + multiset{t};
      ToolsOfKeepsCopies(prefix, p);
    }
  }

  /** The filter keeps cache order: the tools of `p` in `a + b` are those in `a`, then those in `b`. */
  lemma {:induction false} ToolsOfConcat(a: seq<ToolInfo>, b: seq<ToolInfo>, p: string)
    ensures ToolsOf(a + b, p) == ToolsOf(a, p) + ToolsOf(b, p)
    decreases |b|
  {
    if b == [] {
      assert a + b == a;
    } else {
      var b', t := b[..|b| - 1], b[|b| - 1];
      var e: seq<ToolInfo> := if t.provider == p then [t] else [];
      var ab' := a + b';
      assert ab' + [t] == a + b by {
        assert b' + [t] == b;
      }
      ToolsOfConcat(a, b', p);
      ToolsOfAppend(ab', t, p);
      ToolsOfAppend(b', t, p);
      assert b' + [t] == b;
      var x, y := ToolsOf(a, p), ToolsOf(b', p);
      assert (x + y) + e == x + (y + e);
    }
  }

  /** The resource URI names provider `p`: it contains "://" and `p` is the text before the first one. */
  predicate NamesProvider(uri: string, p: string) {
    Contains(uri, "://") && Before(uri, "://") == p
  }

  /** How many resources name provider `p` in their URI. */
  function ResourceCount(resources: seq<ResourceInfo>, p: string): (n: nat)
    ensures n <= |resources|
    ensures n == 0 <==> forall k :: 0 <= k < |resources| ==> !NamesProvider(resources[k].uri, p)
    decreases |resources|
  {
    if resources == [] then 0
    else
      var prefix := resources[..|resources| - 1];
      var x := resources[|resources| - 1];
      assert forall k :: 0 <= k < |prefix| ==> prefix[k] == resources[k];
      ResourceCount(prefix, p) + (if NamesProvider(x.uri, p) then 1 else 0)
  }

  /** The entry of a tool in the listing: its name and description. */
  datatype ToolBrief = ToolBrief(name: string, description: Json)

  function Briefs(tools: seq<ToolInfo>): seq<ToolBrief> {
    seq(|tools|, k requires 0 <= k < |tools| => ToolBrief(tools[k].name, tools[k].description))
  }

  /** One provider's entry in the listing. */
  datatype ProviderSummary = ProviderSummary(name: string, toolsCount: nat, resourcesCount: nat, tools: seq<ToolBrief>)

  /** The entry the listing is meant to hold for provider `p`. */
  function Summary(tools: seq<ToolInfo>, resources: seq<ResourceInfo>, p: string): ProviderSummary {
    ProviderSummary(p, |ToolsOf(tools, p)|, ResourceCount(resources, p), Briefs(ToolsOf(tools, p)))
  }

  lemma BriefsAppend(tools: seq<ToolInfo>, t: ToolInfo)
    ensures Briefs(tools + [t]) == Briefs(tools) + [ToolBrief(t.name, t.description)]
  {
  }

  /** The listing's tool loop, one tool: a new provider gets an empty entry, then the tool is counted in it. */
  function CountTool(info: map<string, ProviderSummary>, t: ToolInfo): map<string, ProviderSummary> {
    if t.provider == "" then info
    else
      var s := if t.provider in info then info[t.provider] else ProviderSummary(t.provider, 0, 0, []);
      info[t.provider := s.(toolsCount := s.toolsCount + 1, tools := s.tools + [ToolBrief(t.name, t.description)])]
  }

  /** The listing's resource loop, one resource: counted for the provider its URI names, if that provider has an entry. */
  function CountResource(info: map<string, ProviderSummary>, x: ResourceInfo): map<string, ProviderSummary> {
    if Contains(x.uri, "://") && Before(x.uri, "://") in info then
      var p := Before(x.uri, "://");
      info[p := info[p].(resourcesCount := info[p].resourcesCount + 1)]
    else info
  }

  lemma ToolsOfAppend(prefix: seq<ToolInfo>, t: ToolInfo, p: string)
    ensures ToolsOf(prefix + [t], p) == ToolsOf(prefix, p) + (if t.provider == p then [t] else [])
  {
    assert (prefix + [t])[..|prefix|] == prefix;
  }

  lemma ProvidersAppend(prefix: seq<ToolInfo>, t: ToolInfo)
    ensures Providers(prefix + [t]) ==
      if t.provider != "" && t.provider !in Providers(prefix) then Providers(prefix) + [t.provider] else Providers(prefix)
  {
    assert (prefix + [t])[..|prefix|] == prefix;
  }

  lemma ResourceCountAppend(prefix: seq<ResourceInfo>, x: ResourceInfo, p: string)
    ensures ResourceCount(prefix + [x], p) == ResourceCount(prefix, p) + (if NamesProvider(x.uri, p) then 1 else 0)
  {
    assert (prefix + [x])[..|prefix|] == prefix;
  }

  /** A provider no tool offers has no tools. */
  lemma ToolsOfAbsent(tools: seq<ToolInfo>, p: string)
    requires !Offers(tools, p)
    ensures ToolsOf(tools, p) == []
  {
  }

  /** The tool loop's step, for the entry of one provider. */
  lemma ToolStepAt(prefix: seq<ToolInfo>, t: ToolInfo, info: map<string, ProviderSummary>, p: string)
    requires p in info <==> p in Providers(prefix)
    requires p in info ==> info[p] == Summary(prefix, [], p)
    requires p in CountTool(info, t)
    ensures CountTool(info, t)[p] == Summary(prefix + [t], [], p)
  {
    ToolsOfAppend(prefix, t, p);
    if p == t.provider {
      if p !in info {
        ToolsOfAbsent(prefix, p);
      }
      BriefsAppend(ToolsOf(prefix, p), t);
    }
  }

  /** One step of the tool loop keeps the entries equal to the summaries of the tools seen so far. */
  lemma ToolStep(prefix: seq<ToolInfo>, t: ToolInfo, info: map<string, ProviderSummary>)
    requires forall p :: p in info <==> p in Providers(prefix)
    requires forall p :: p in info ==> info[p] == Summary(prefix, [], p)
    ensures forall p :: p in CountTool(info, t) <==> p in Providers(prefix + [t])
    ensures forall p :: p in CountTool(info, t) ==> CountTool(info, t)[p] == Summary(prefix + [t], [], p)
  {
    ProvidersAppend(prefix, t);
    forall p | p in CountTool(info, t) ensures CountTool(info, t)[p] == Summary(prefix + [t], [], p) {
      ToolStepAt(prefix, t, info, p);
    }
  }

  /** One step of the resource loop keeps the entries equal to the summaries of the resources seen so far. */
  lemma ResourceStep(tools: seq<ToolInfo>, prefix: seq<ResourceInfo>, x: ResourceInfo, info: map<string, ProviderSummary>)
    requires forall p :: p in info ==> info[p] == Summary(tools, prefix, p)
    ensures CountResource(info, x).Keys == info.Keys
    ensures forall p :: p in CountResource(info, x) ==> CountResource(info, x)[p] == Summary(tools, prefix + [x], p)
  {
    forall p | p in info ensures CountResource(info, x)[p] == Summary(tools, prefix + [x], p) {
      ResourceCountAppend(prefix, x, p);
    }
  }

  /**
   * `get_available_providers` on the caches: one entry per distinct non-empty
   * tool provider, in order of first appearance, with that provider's tools and
   * the number of resources whose URI names it; resources naming no tool
   * provider are not counted anywhere.
   */
  method ListProviders(tools: seq<ToolInfo>, resources: seq<ResourceInfo>) returns (total: nat, providers: seq<ProviderSummary>)
    ensures total == |providers| == |Providers(tools)|
    ensures forall i :: 0 <= i < total ==> providers[i] == Summary(tools, resources, Providers(tools)[i])
  {
    var order: seq<string> := [];
    var info: map<string, ProviderSummary> := map[];
    var i := 0;
    while i < |tools|
      invariant 0 <= i <= |tools|
      invariant order == Providers(tools[..i])
      invariant forall p :: p in info <==> p in order
      invariant forall p :: p in info ==> info[p] == Summary(tools[..i], [], p)
    {
      var t := tools[i];
      assert tools[..i + 1] == tools[..i] + [t];
      ToolStep(tools[..i], t, info);
      ProvidersAppend(tools[..i], t);
      if t.provider != "" && t.provider !in info {
        order := order + [t.provider];
      }
      info := CountTool(info, t);
      i := i + 1;
    }
    assert tools[..|tools|] == tools;
    var j := 0;
    while j < |resources|
      invariant 0 <= j <= |resources|
      invariant forall p :: p in info <==> p in order
      invariant forall p :: p in info ==> info[p] == Summary(tools, resources[..j], p)
    {
      assert resources[..j + 1] == resources[..j] + [resources[j]];
      ResourceStep(tools, resources[..j], resources[j], info);
      info := CountResource(info, resources[j]);
      j := j + 1;
    }
    assert resources[..|resources|] == resources;
    providers := seq(|order|, k requires 0 <= k < |order| => info[order[k]]);
    total := |order|;
  }

  // ---------------------------------------------------------------------------
  // The per-provider description
  // ---------------------------------------------------------------------------

  /** The providers the description endpoint knows: every tool's provider and every provider named by a resource URI. */
  function KnownProviders(tools: seq<ToolInfo>, resources: seq<ResourceInfo>): set<string> {
    (set t | t in tools :: t.provider) + (set x | x in resources && Contains(x.uri, "://") :: Before(x.uri, "://"))
  }

  /** The resources whose URI starts with `prefix`, in cache order. */
  function ResourcesUnder(resources: seq<ResourceInfo>, prefix: string): (r: seq<ResourceInfo>)
    ensures forall x :: x in r <==> x in resources && StartsWith(x.uri, prefix)
    decreases |resources|
  {
    if resources == [] then []
    else
      var rest := resources[..|resources| - 1];
      var x := resources[|resources| - 1];
      assert resources == rest + [x];
      ResourcesUnder(rest, prefix) + (if StartsWith(x.uri, prefix) then [x] else [])
  }

  lemma ResourcesUnderAppend(rest: seq<ResourceInfo>, x: ResourceInfo, prefix: string)
    ensures ResourcesUnder(rest + [x], prefix) == ResourcesUnder(rest, prefix) + (if StartsWith(x.uri, prefix) then [x] else [])
  {
    assert (rest + [x])[..|rest|] == rest;
  }

  /** Duplicates are kept: each resource under `prefix` occurs in the filtered list as often as in the cache. */
  lemma {:induction false} ResourcesUnderKeepsCopies(resources: seq<ResourceInfo>, prefix: string)
    ensures forall x ::
      multiset(ResourcesUnder(resources, prefix))[x] == if StartsWith(x.uri, prefix) then multiset(resources)[x] else 0
    decreases |resources|
  {
    if resources != [] {
      var rest := resources[..|resources| - 1];
      var x := resources[|resources| - 1];
      assert resources == rest + [x];
      assert multiset(resources) == multiset(rest) + multiset{x};
      ResourcesUnderKeepsCopies(rest, prefix);
    }
  }

  /** The filter keeps cache order: the resources under `prefix` in `a + b` are those in `a`, then those in `b`. */
  lemma {:induction false} ResourcesUnderConcat(a: seq<ResourceInfo>, b: seq<ResourceInfo>, prefix: string)
    ensures ResourcesUnder(a + b, prefix) == ResourcesUnder(a, prefix) + ResourcesUnder(b, prefix)
    decreases |b|
  {
    if b == [] {
      assert a + b == a;
    } else {
      var b', x := b[..|b| - 1], b[|b| - 1];
      var e: seq<ResourceInfo> := if StartsWith(x.uri, prefix) then [x] else [];
      var ab' := a + b';
      assert ab' + [x] == a + b by {
        assert b' + [x] == b;
      }
      ResourcesUnderConcat(a, b', prefix);
      ResourcesUnderAppend(ab', x, prefix);
      ResourcesUnderAppend(b', x, prefix);
      assert b' + [x] == b;
      var u, v := ResourcesUnder(a, prefix), ResourcesUnder(b', prefix);
      assert (u + v) + e == u + (v + e);
    }
  }

  /** The description of one provider, or the 404 for an unknown one. */
  datatype Description = ProviderNotFound | Described(provider: string, tools: seq<ToolInfo>, resources: seq<ResourceInfo>)

  /**
   * `get_service_agent_description_by_provider`: 404 for a provider neither a
   * tool nor a resource URI names; otherwise the tools with exactly that
   * provider and the resources whose URI starts with "<provider>://".
   */
  function Describe(tools: seq<ToolInfo>, resources: seq<ResourceInfo>, p: string): (d: Description)
    ensures d == ProviderNotFound <==> p !in KnownProviders(tools, resources)
    ensures d.Described? ==> d.provider == p
    ensures d.Described? ==> forall t :: t in d.tools <==> t in tools && t.provider == p
    ensures d.Described? ==> forall x :: x in d.resources <==> x in resources && StartsWith(x.uri, p + "://")
    ensures d.Described? ==> d.tools == ToolsOf(tools, p) && d.resources == ResourcesUnder(resources, p + "://")
  {
    if p !in KnownProviders(tools, resources) then ProviderNotFound
    else Described(p, ToolsOf(tools, p), ResourcesUnder(resources, p + "://"))
  }

  /**
   * The two ways of attributing a resource to a provider agree: for a provider
   * name without "://", a resource is listed in its description exactly when
   * it is counted for it in the providers listing.
   */
  lemma DescriptionMatchesCount(resources: seq<ResourceInfo>, p: string, x: ResourceInfo)
    requires !Contains(p, "://")
    ensures StartsWith(x.uri, p + "://") <==> NamesProvider(x.uri, p)
  {
    SchemeSeparatorUnbordered();
    PrefixIffBefore(x.uri, p, "://");
  }

  /** A provider that has resources but no tools is still described, but gets no entry in the listing. */
  lemma ResourceOnlyProvider(tools: seq<ToolInfo>, resources: seq<ResourceInfo>, p: string, k: nat)
    requires k < |resources| && NamesProvider(resources[k].uri, p)
    requires forall t :: t in tools ==> t.provider != p
    ensures Describe(tools, resources, p).Described?
    ensures p !in Providers(tools)
  {
    assert resources[k] in resources;
    assert p in KnownProviders(tools, resources);
    assert forall i :: 0 <= i < |tools| ==> tools[i] in tools;
  }

  // ---------------------------------------------------------------------------
  // The MCP SDK, abstracted
  // ---------------------------------------------------------------------------

  /** One content item of a tool or resource result: a text item, or any other kind shown through `str`. */
  datatype ContentItem = TextItem(text: string) | OtherItem(display: string)

  /** The answer of a server to a tool call. */
  datatype CallOutcome = CallRaised(message: string) | CallReturned(content: seq<ContentItem>, isError: bool)

  /** The answer of a server to a resource read; `mimeType` is `None` when the result has no such attribute. */
  datatype ReadOutcome = ReadRaised(message: string) | ReadReturned(contents: seq<ContentItem>, mimeType: Option<Json>)

  /**
   * The SDK: whether it is installed, the tool call and resource read against a
   * server URL, and `json.loads` on a text item (`None` when it is not JSON).
   */
  datatype Sdk = Sdk(
    available: bool,
    callTool: (string, string, Json) -> CallOutcome,
    readResource: (string, string) -> ReadOutcome,
    parseJson: string -> Option<Json>)

  /** A content item as JSON: parsed text, the raw text when it is not JSON, or the item's `str`. */
  function ItemValue(sdk: Sdk, item: ContentItem): Json {
    match item
    case TextItem(text) => (match sdk.parseJson(text) case Some(j) => j case None => JStr(text))
    case OtherItem(display) => JStr(display)
  }

  function ItemValues(sdk: Sdk, items: seq<ContentItem>): (r: seq<Json>)
    ensures |r| == |items|
  {
    seq(|items|, k requires 0 <= k < |items| => ItemValue(sdk, items[k]))
  }

  /**
   * The `result` and `isError` of a tool call: no content gives the text
   * "No content returned" and no error; exactly one item is returned by
   * itself; several items are returned as a list, in order.
   */
  function Unwrap(sdk: Sdk, content: seq<ContentItem>, isError: bool): (r: (Json, bool))
    ensures content == [] ==> r == (JStr("No content returned"), false)
    ensures |content| == 1 ==> r == (ItemValue(sdk, content[0]), isError)
    ensures |content| > 1 ==> r.0.JArr? && |r.0.items| == |content| && r.1 == isError
    ensures |content| > 1 ==> forall k :: 0 <= k < |content| ==> r.0.items[k] == ItemValue(sdk, content[k])
  {
    if content == [] then (JStr("No content returned"), false)
    else
      var values := ItemValues(sdk, content);
      (if |values| == 1 then values[0] else JArr(values), isError)
  }

  /** The server configured for a provider, found the way the router does: by the tool name "<provider>_dummy". */
  function ServerFor(m: Manager, provider: string): Option<ServerConfig> {
    GetServerConfig(m, provider + "_dummy")
  }

  /**
   * `call_mcp_tool_with_sdk`: the unwrapped result and error flag, or the text
   * of the exception raised.
   */
  function CallWithSdk(m: Manager, sdk: Sdk, provider: string, toolName: string, arguments: Json): (r: Result<(Json, bool), string>)
    ensures !sdk.available ==> r == Err("MCP SDK not available")
    ensures sdk.available && ServerFor(m, provider).None? ==>
      r == Err("No MCP server configured for provider '" + provider + "'")
    ensures sdk.available && ServerFor(m, provider).Some? ==>
      var call := sdk.callTool(ServerFor(m, provider).value.serverUrl, toolName, arguments);
      call.CallRaised? ==> r == Err("MCP tool call failed: " + call.message)
    ensures r.Ok? ==> sdk.available && ServerFor(m, provider).Some?
  {
    if !sdk.available then Err("MCP SDK not available")
    else match ServerFor(m, provider)
      case None => Err("No MCP server configured for provider '" + provider + "'")
      case Some(config) =>
        match sdk.callTool(config.serverUrl, toolName, arguments)
        case CallRaised(message) => Err("MCP tool call failed: " + message)
        case CallReturned(content, isError) => Ok(Unwrap(sdk, content, isError))
  }

  // ---------------------------------------------------------------------------
  // Tool calls
  // ---------------------------------------------------------------------------

  /** A reply: a JSON body with its status, or an HTTP error with its detail text. */
  datatype Reply =
    | JsonReply(status: int, body: Json)
    | HttpError(status: int, detail: string)
    | ToolNotFound(toolName: Json, provider: string)

  /** The status of a reply; a missing tool is a 404. */
  function ReplyStatus(r: Reply): int {
    match r
    case JsonReply(status, _) => status
    case HttpError(status, _) => status
    case ToolNotFound(_, _) => 404
  }

  /** The request is JSON-RPC 2.0 exactly when its `jsonrpc` member is the string "2.0". */
  predicate IsJsonRpc(request: map<string, Json>) {
    Get(request, "jsonrpc") == JStr("2.0")
  }

  /** The tool named: `method` in JSON-RPC, `tool_name` in the legacy shape. */
  function ToolNameOf(request: map<string, Json>): Json {
    if IsJsonRpc(request) then Get(request, "method") else Get(request, "tool_name")
  }

  /** The arguments: `params` (default `{}`) in JSON-RPC; `params`, else `arguments`, else `{}` in the legacy shape. */
  function ArgumentsOf(request: map<string, Json>): (args: Json)
    ensures "params" in request ==> args == request["params"]
    ensures "params" !in request && IsJsonRpc(request) ==> args == JObj(map[])
    ensures "params" !in request && !IsJsonRpc(request) && "arguments" in request ==> args == request["arguments"]
    ensures "params" !in request && "arguments" !in request ==> args == JObj(map[])
  {
    if IsJsonRpc(request) then GetOr(request, "params", JObj(map[]))
    else GetOr(request, "params", GetOr(request, "arguments", JObj(map[])))
  }

  /** Some cached tool has exactly this name and provider. */
  predicate ToolExists(tools: seq<ToolInfo>, toolName: Json, provider: string) {
    exists k :: 0 <= k < |tools| && toolName == JStr(tools[k].name) && tools[k].provider == provider
  }

  /** The 500 reply after a failed call, in the request's shape. */
  function CallErrorReply(request: map<string, Json>, provider: string, name: string, error: string): Reply {
    var message := "Internal error calling tool '" + name + "' from provider '" + provider + "'";
    var details := "MCP tool call error: " + error;
    if IsJsonRpc(request) then
      JsonReply(500, JObj(map[
        "jsonrpc" := JStr("2.0"),
        "error" := JObj(map["code" := JNum(-32603), "message" := JStr(message), "data" := JStr(details)]),
        "id" := Get(request, "id")]))
    else
      JsonReply(500, JObj(map[
        "success" := JBool(false),
        "tool" := JStr(name),
        "provider" := JStr(provider),
        "error" := JStr(message),
        "details" := JStr(details)]))
  }

  /** The 200 reply carrying a tool's result, in the request's shape. */
  function CallResultReply(request: map<string, Json>, provider: string, name: string, result: Json, isError: bool): Reply {
    if IsJsonRpc(request) then
      if isError then
        JsonReply(200, JObj(map[
          "jsonrpc" := JStr("2.0"),
          "error" := JObj(map["code" := JNum(-32000), "message" := JStr("Tool execution error"), "data" := result]),
          "id" := Get(request, "id")]))
      else
        JsonReply(200, JObj(map["jsonrpc" := JStr("2.0"), "result" := result, "id" := Get(request, "id")]))
    else
      JsonReply(200, JObj(map[
        "success" := JBool(true),
        "tool" := JStr(name),
        "provider" := JStr(provider),
        "result" := result,
        "isError" := JBool(isError)]))
  }

  /**
   * `call_mcp_tool`: 400 without a tool name, 404 for a tool the provider does
   * not have (both raised as HTTP errors), otherwise the call's result in the
   * request's shape, or a 500 in that shape when the call fails.
   */
  function CallTool(m: Manager, sdk: Sdk, provider: string, request: map<string, Json>): (r: Reply)
    ensures !Truthy(ToolNameOf(request)) ==> r.HttpError? && r.status == 400
    ensures Truthy(ToolNameOf(request)) && !ToolExists(m.tools, ToolNameOf(request), provider) ==>
      r == ToolNotFound(ToolNameOf(request), provider)
    ensures r.JsonReply? ==> ToolExists(m.tools, ToolNameOf(request), provider) && r.body.JObj?
    ensures r.JsonReply? && IsJsonRpc(request) ==> Field(r.body, "jsonrpc") == JStr("2.0") && Field(r.body, "id") == Get(request, "id")
    ensures r.JsonReply? && !IsJsonRpc(request) ==>
      Field(r.body, "success") == JBool(r.status == 200) && Field(r.body, "provider") == JStr(provider)
    ensures r.JsonReply? && r.status == 500 && IsJsonRpc(request) ==> Field(Field(r.body, "error"), "code") == JNum(-32603)
  {
    var toolName := ToolNameOf(request);
    if !Truthy(toolName) then
      if IsJsonRpc(request)
      then HttpError(400, "Missing 'method' field in JSON-RPC request")
      else HttpError(400, "Missing 'tool_name' field in legacy request")
    else if !ToolExists(m.tools, toolName, provider) then ToolNotFound(toolName, provider)
    else
      var name := toolName.s;
      match CallWithSdk(m, sdk, provider, name, ArgumentsOf(request))
      case Err(error) => CallErrorReply(request, provider, name, error)
      case Ok((result, isError)) => CallResultReply(request, provider, name, result, isError)
  }

  /**
   * A JSON-RPC call whose tool reports an error is answered with code -32000
   * and the tool's result as `data`; one whose tool succeeds with its result.
   */
  lemma JsonRpcToolOutcome(m: Manager, sdk: Sdk, provider: string, request: map<string, Json>, config: ServerConfig,
                           content: seq<ContentItem>, isError: bool)
    requires IsJsonRpc(request) && Truthy(ToolNameOf(request)) && ToolExists(m.tools, ToolNameOf(request), provider)
    requires sdk.available && ServerFor(m, provider) == Some(config)
    requires sdk.callTool(config.serverUrl, ToolNameOf(request).s, ArgumentsOf(request)) == CallReturned(content, isError)
    ensures var r := CallTool(m, sdk, provider, request);
      var result := Unwrap(sdk, content, isError);
      && r.JsonReply? && r.status == 200
      && (result.1 ==> Field(r.body, "error") == JObj(map["code" := JNum(-32000), "message" := JStr("Tool execution error"), "data" := result.0]))
      && (!result.1 ==> Field(r.body, "result") == result.0 && Field(r.body, "error") == JNull)
  {
    var name := ToolNameOf(request).s;
    var result := Unwrap(sdk, content, isError);
    assert CallWithSdk(m, sdk, provider, name, ArgumentsOf(request)) == Ok(result);
    var r := CallTool(m, sdk, provider, request);
    assert r == CallResultReply(request, provider, name, result.0, result.1);
    if result.1 {
      assert Field(r.body, "error") == JObj(map["code" := JNum(-32000), "message" := JStr("Tool execution error"), "data" := result.0]);
    } else {
      assert r.body.fields.Keys == {"jsonrpc", "result", "id"};
      assert "error" != "jsonrpc" && "error" != "result" && "error" != "id";
      assert Field(r.body, "error") == JNull;
    }
  }

  /**
   * A legacy call of a cached tool, with the arguments taken from `params`,
   * else `arguments`, else `{}`, is answered with a 200 that reports success,
   * names the tool and the provider, and carries the unwrapped result and the
   * tool's error flag.
   */
  lemma LegacyToolOutcome(m: Manager, sdk: Sdk, provider: string, request: map<string, Json>, config: ServerConfig,
                          content: seq<ContentItem>, isError: bool)
    requires !IsJsonRpc(request) && Truthy(ToolNameOf(request)) && ToolExists(m.tools, ToolNameOf(request), provider)
    requires sdk.available && ServerFor(m, provider) == Some(config)
    requires sdk.callTool(config.serverUrl, ToolNameOf(request).s, ArgumentsOf(request)) == CallReturned(content, isError)
    ensures ToolNameOf(request) == Get(request, "tool_name")
    ensures var r := CallTool(m, sdk, provider, request);
      var result := Unwrap(sdk, content, isError);
      && r.JsonReply? && r.status == 200
      && r.body == JObj(map[
        "success" := JBool(true),
        "tool" := ToolNameOf(request),
        "provider" := JStr(provider),
        "result" := result.0,
        "isError" := JBool(result.1)])
  {
    var name := ToolNameOf(request).s;
    var result := Unwrap(sdk, content, isError);
    assert CallWithSdk(m, sdk, provider, name, ArgumentsOf(request)) == Ok(result);
    var k :| 0 <= k < |m.tools| && ToolNameOf(request) == JStr(m.tools[k].name) && m.tools[k].provider == provider;
    assert JStr(name) == ToolNameOf(request);
  }

  /**
   * A call of a cached tool that fails (no SDK, no server for the provider, or
   * an exception from the server) is answered with a 500 in the request's
   * shape: code -32603 with the wrapped error as `data` in JSON-RPC, `success`
   * false with the wrapped error as `details` in the legacy shape.
   */
  lemma FailedToolCallOutcome(m: Manager, sdk: Sdk, provider: string, request: map<string, Json>, e: string)
    requires Truthy(ToolNameOf(request)) && ToolExists(m.tools, ToolNameOf(request), provider)
    requires CallWithSdk(m, sdk, provider, ToolNameOf(request).s, ArgumentsOf(request)) == Err(e)
    ensures var name := ToolNameOf(request).s;
      var message := JStr("Internal error calling tool '" + name + "' from provider '" + provider + "'");
      var r := CallTool(m, sdk, provider, request);
      && r.JsonReply? && r.status == 500
      && (IsJsonRpc(request) ==> r.body == JObj(map[
            "jsonrpc" := JStr("2.0"),
            "error" := JObj(map["code" := JNum(-32603), "message" := message, "data" := JStr("MCP tool call error: " + e)]),
            "id" := Get(request, "id")]))
      && (!IsJsonRpc(request) ==> r.body == JObj(map[
            "success" := JBool(false),
            "tool" := JStr(name),
            "provider" := JStr(provider),
            "error" := message,
            "details" := JStr("MCP tool call error: " + e)]))
  {
    var k :| 0 <= k < |m.tools| && ToolNameOf(request) == JStr(m.tools[k].name) && m.tools[k].provider == provider;
  }

  /** Without the SDK every call of a cached tool is a 500 whose error text says so. */
  lemma ToolCallWithoutSdk(m: Manager, sdk: Sdk, provider: string, request: map<string, Json>)
    requires !sdk.available
    requires Truthy(ToolNameOf(request)) && ToolExists(m.tools, ToolNameOf(request), provider)
    ensures var r := CallTool(m, sdk, provider, request);
      && r.JsonReply? && r.status == 500
      && (IsJsonRpc(request) ==> Field(Field(r.body, "error"), "data") == JStr("MCP tool call error: " + "MCP SDK not available"))
      && (!IsJsonRpc(request) ==> Field(r.body, "details") == JStr("MCP tool call error: " + "MCP SDK not available"))
  {
    var e := "MCP SDK not available";
    assert CallWithSdk(m, sdk, provider, ToolNameOf(request).s, ArgumentsOf(request)) == Err(e);
    FailedToolCallOutcome(m, sdk, provider, request, e);
    var message := JStr("Internal error calling tool '" + ToolNameOf(request).s + "' from provider '" + provider + "'");
    var error := JObj(map["code" := JNum(-32603), "message" := message, "data" := JStr("MCP tool call error: " + e)]);
    assert Field(error, "data") == JStr("MCP tool call error: " + e);
  }

  /** A server that raises during a call of a cached tool gives a 500 carrying the server's message. */
  lemma ToolCallRaised(m: Manager, sdk: Sdk, provider: string, request: map<string, Json>, config: ServerConfig, message: string)
    requires sdk.available && ServerFor(m, provider) == Some(config)
    requires Truthy(ToolNameOf(request)) && ToolExists(m.tools, ToolNameOf(request), provider)
    requires sdk.callTool(config.serverUrl, ToolNameOf(request).s, ArgumentsOf(request)) == CallRaised(message)
    ensures var r := CallTool(m, sdk, provider, request);
      && r.JsonReply? && r.status == 500
      && (IsJsonRpc(request) ==>
            Field(Field(r.body, "error"), "data") == JStr("MCP tool call error: " + ("MCP tool call failed: " + message)))
      && (!IsJsonRpc(request) ==> Field(r.body, "details") == JStr("MCP tool call error: " + ("MCP tool call failed: " + message)))
  {
    var e := "MCP tool call failed: " + message;
    assert CallWithSdk(m, sdk, provider, ToolNameOf(request).s, ArgumentsOf(request)) == Err(e);
    FailedToolCallOutcome(m, sdk, provider, request, e);
    var text := JStr("Internal error calling tool '" + ToolNameOf(request).s + "' from provider '" + provider + "'");
    var error := JObj(map["code" := JNum(-32603), "message" := text, "data" := JStr("MCP tool call error: " + e)]);
    assert Field(error, "data") == JStr("MCP tool call error: " + e);
  }

  // ---------------------------------------------------------------------------
  // Resource reads
  // ---------------------------------------------------------------------------

  /**
   * The resource path as the router computes it, `uri.split('://')[1]`: the
   * text between the first and the second "://", or up to the end when there is
   * no second one.
   */
  function ResourcePathAsWritten(uri: string): string
    requires Contains(uri, "://")
  {
    Split(uri, "://")[1]
  }

  /**
   * The resource path the cache's URIs call for: everything after the first
   * "://", which is the URI the provider's server listed.
   */
  function ResourcePath(uri: string): (path: string)
    requires Contains(uri, "://")
    ensures uri == Before(uri, "://") + "://" + path
  {
    var i := |Before(uri, "://")|;
    assert uri[i..i + 3] == "://";
    uri[i + 3..]
  }

  /** Round trip: a cached URI `p + "://" + x` is read back as provider `p` and path `x`, whatever `x` holds. */
  lemma ResourcePathRoundTrip(p: string, x: string)
    requires !Contains(p, "://")
    ensures Contains(p + "://" + x, "://")
    ensures Before(p + "://" + x, "://") == p
    ensures ResourcePath(p + "://" + x) == x
  {
    SchemeSeparatorUnbordered();
    BeforeJoined(p, "://", x);
  }

  /**
   * The path as written drops everything from the second "://" on: a server
   * resource listed as `y + "://" + z` is cached as `p + "://" + y + "://" + z`
   * and then requested as `y` alone.
   */
  lemma ResourcePathTruncated(p: string, y: string, z: string)
    requires !Contains(p, "://") && !Contains(y, "://")
    ensures Contains(p + "://" + (y + "://" + z), "://")
    ensures ResourcePathAsWritten(p + "://" + (y + "://" + z)) == y
    ensures ResourcePath(p + "://" + (y + "://" + z)) == y + "://" + z
    ensures ResourcePathAsWritten(p + "://" + (y + "://" + z)) != ResourcePath(p + "://" + (y + "://" + z))
  {
    var x := y + "://" + z;
    var uri := p + "://" + x;
    SchemeSeparatorUnbordered();
    ResourcePathRoundTrip(p, x);
    FindAfterPrefix(p, "://", x);
    assert uri[|p| + 3..] == x;
    assert Split(uri, "://") == [uri[..|p|]] + Split(x, "://");
    SplitHead(x, "://");
    BeforeJoined(y, "://", z);
  }

  /**
   * Where the two readings agree: for a server resource whose own URI has no
   * "://", `split('://')[1]` and the corrected path both give that URI back.
   */
  lemma ResourcePathAgrees(p: string, x: string)
    requires !Contains(p, "://") && !Contains(x, "://")
    ensures Contains(p + "://" + x, "://")
    ensures ResourcePathAsWritten(p + "://" + x) == x
    ensures ResourcePath(p + "://" + x) == x
  {
    var uri := p + "://" + x;
    SchemeSeparatorUnbordered();
    ResourcePathRoundTrip(p, x);
    FindAfterPrefix(p, "://", x);
    assert uri[|p| + 3..] == x;
    assert Split(uri, "://") == [uri[..|p|]] + Split(x, "://");
    SplitHead(x, "://");
  }

  /** A text without ':' has no "://" in it. */
  lemma NoColonNoScheme(s: string)
    requires ':' !in s
    ensures !Contains(s, "://")
  {
    forall j ensures !OccursAt(s, "://", j) {
      if 0 <= j && j + 3 <= |s| {
        assert s[j..j + 3][0] == s[j];
      }
    }
  }

  /** The counterexample in concrete terms: provider "amap", server resource "file://cities". */
  lemma ResourcePathExample(uri: string)
    requires uri == "amap" + "://" + ("file" + "://" + "cities")
    ensures Contains(uri, "://")
    ensures ResourcePathAsWritten(uri) == "file"
    ensures ResourcePath(uri) == "file://cities"
  {
    NoColonNoScheme("amap");
    NoColonNoScheme("file");
    ResourcePathTruncated("amap", "file", "cities");
    var path := ResourcePath(uri);
    assert path == "file" + "://" + "cities";
    assert |path| == 13 && forall i | 0 <= i < 13 :: path[i] == "file://cities"[i];
  }

  /**
   * `read_mcp_resource_with_sdk`: the resource's content list and MIME type, or
   * the text of the exception raised. An empty result is an empty list with
   * MIME type "text/plain".
   */
  function ReadWithSdk(m: Manager, sdk: Sdk, provider: string, path: string): (r: Result<(Json, Json), string>)
    ensures !sdk.available ==> r == Err("MCP SDK not available")
    ensures sdk.available && ServerFor(m, provider).None? ==>
      r == Err("No MCP server configured for provider '" + provider + "'")
    ensures sdk.available && ServerFor(m, provider).Some? ==>
      var read := sdk.readResource(ServerFor(m, provider).value.serverUrl, path);
      read.ReadRaised? ==> r == Err("MCP resource read failed: " + read.message)
    ensures r.Ok? ==>
      sdk.available && ServerFor(m, provider).Some? && sdk.readResource(ServerFor(m, provider).value.serverUrl, path).ReadReturned?
  {
    if !sdk.available then Err("MCP SDK not available")
    else match ServerFor(m, provider)
      case None => Err("No MCP server configured for provider '" + provider + "'")
      case Some(config) =>
        match sdk.readResource(config.serverUrl, path)
        case ReadRaised(message) => Err("MCP resource read failed: " + message)
        case ReadReturned(contents, mimeType) =>
          if contents == [] then Ok((JArr([]), JStr("text/plain")))
          else Ok((JArr(ItemValues(sdk, contents)), mimeType.GetOr(JStr("text/plain"))))
  }

  /**
   * `get_mcp_resource`: 404 for a URI no cached resource has (checked first),
   * 400 for a URI without "://"; otherwise the provider is the lower-cased text
   * before the first "://" and the path everything after it (see
   * `ResourcePathTruncated`). A failed read is a 500 naming the provider
   * without lower-casing.
   */
  function GetResource(m: Manager, sdk: Sdk, uri: string): (r: Reply)
    ensures r == HttpError(404, "Resource '" + uri + "' not found") <==> forall k :: 0 <= k < |m.resources| ==> m.resources[k].uri != uri
    ensures r.HttpError? && r.status == 400 ==> !Contains(uri, "://")
    ensures r.JsonReply? && r.status == 200 ==>
      Field(r.body, "provider") == JStr(Lower(Before(uri, "://"))) && Field(r.body, "uri") == JStr(uri)
    ensures r.JsonReply? && r.status == 500 ==> Field(r.body, "provider") == JStr(Before(uri, "://"))
  {
    if forall k :: 0 <= k < |m.resources| ==> m.resources[k].uri != uri then
      HttpError(404, "Resource '" + uri + "' not found")
    else if !Contains(uri, "://") then
      HttpError(400, "Invalid resource URI format: '" + uri + "'")
    else
      var provider := Lower(Split(uri, "://")[0]);
      match ReadWithSdk(m, sdk, provider, ResourcePath(uri))
      case Ok((content, mimeType)) =>
        JsonReply(200, JObj(map[
          "success" := JBool(true),
          "uri" := JStr(uri),
          "provider" := JStr(provider),
          "content" := content,
          "mimeType" := mimeType]))
      case Err(error) =>
        JsonReply(500, JObj(map[
          "success" := JBool(false),
          "uri" := JStr(uri),
          "provider" := JStr(Split(uri, "://")[0]),
          "error" := JStr("Error getting resource '" + uri + "'"),
          "details" := JStr("MCP resource read error: " + error)]))
  }

  /**
   * A read of a cached URI that fails (no SDK, no server for the provider, or an
   * exception from the server) is a 500 that reports failure, echoes the URI,
   * names the provider as written in the URI and carries the wrapped error.
   */
  lemma FailedResourceRead(m: Manager, sdk: Sdk, uri: string, k: nat, e: string)
    requires k < |m.resources| && m.resources[k].uri == uri && Contains(uri, "://")
    requires ReadWithSdk(m, sdk, Lower(Before(uri, "://")), ResourcePath(uri)) == Err(e)
    ensures GetResource(m, sdk, uri) == JsonReply(500, JObj(map[
      "success" := JBool(false),
      "uri" := JStr(uri),
      "provider" := JStr(Before(uri, "://")),
      "error" := JStr("Error getting resource '" + uri + "'"),
      "details" := JStr("MCP resource read error: " + e)]))
  {
    SplitHead(uri, "://");
  }

  /** Without the SDK, reading any cached URI is a 500 whose details say so. */
  lemma ResourceReadWithoutSdk(m: Manager, sdk: Sdk, uri: string, k: nat)
    requires !sdk.available
    requires k < |m.resources| && m.resources[k].uri == uri && Contains(uri, "://")
    ensures GetResource(m, sdk, uri).JsonReply? && GetResource(m, sdk, uri).status == 500
    ensures Field(GetResource(m, sdk, uri).body, "details") == JStr("MCP resource read error: " + "MCP SDK not available")
  {
    var e := "MCP SDK not available";
    assert ReadWithSdk(m, sdk, Lower(Before(uri, "://")), ResourcePath(uri)) == Err(e);
    FailedResourceRead(m, sdk, uri, k, e);
    var body := map[
      "success" := JBool(false),
      "uri" := JStr(uri),
      "provider" := JStr(Before(uri, "://")),
      "error" := JStr("Error getting resource '" + uri + "'"),
      "details" := JStr("MCP resource read error: " + e)];
    assert "details" in body && body["details"] == JStr("MCP resource read error: " + e);
    assert GetResource(m, sdk, uri) == JsonReply(500, JObj(body));
  }

  /**
   * Round trip through the resource cache: reading a cached URI `p + "://" + x`
   * of a lower-case provider `p` asks that provider's server for `x`, the URI it
   * listed, and answers 200 with the items it returned.
   */
  lemma ReadsListedResource(m: Manager, sdk: Sdk, p: string, x: string, k: nat, config: ServerConfig,
                            contents: seq<ContentItem>, mimeType: Option<Json>)
    requires k < |m.resources| && m.resources[k].uri == p + "://" + x
    requires !Contains(p, "://") && Lower(p) == p
    requires sdk.available && ServerFor(m, p) == Some(config)
    requires sdk.readResource(config.serverUrl, x) == ReadReturned(contents, mimeType) && contents != []
    ensures GetResource(m, sdk, p + "://" + x) == JsonReply(200, JObj(map[
      "success" := JBool(true),
      "uri" := JStr(p + "://" + x),
      "provider" := JStr(p),
      "content" := JArr(ItemValues(sdk, contents)),
      "mimeType" := mimeType.GetOr(JStr("text/plain"))]))
  {
    var uri := p + "://" + x;
    ResourcePathRoundTrip(p, x);
    SplitHead(uri, "://");
  }
}

=== FILE: provider_registry.dfy ===
/**
 * The MCP server manager: a registry of tool providers keyed by lower-cased
 * name, the lookup of a provider's server from a prefixed tool name, and the
 * caches of tools and resources discovered from the providers' servers.
 *
 * What a provider's server answers is a parameter (`Discovery`): the SDK
 * session itself is network I/O.
 */
module ProviderRegistry {
  import opened Common
  import opened Text
  import opened JsonValue

  /** Where a provider's MCP server lives and the headers to send it. */
  datatype ServerConfig = ServerConfig(serverUrl: string, headers: map<string, string>)

  /** A cached tool: its own name, the provider it came from, its description and input schema. */
  datatype ToolInfo = ToolInfo(name: string, provider: string, description: Json, inputSchema: Json)

  /** A cached resource; its URI is prefixed with "<provider>://". */
  datatype ResourceInfo = ResourceInfo(uri: string, name: string, description: Json, mimeType: Json)

  /**
   * The manager's state: the two caches, the provider configurations, and the
   * order in which providers were first added (the iteration order of the
   * configuration dictionary; overwriting a provider keeps its place).
   */
  datatype Manager = Manager(
    tools: seq<ToolInfo>,
    resources: seq<ResourceInfo>,
    configs: map<string, ServerConfig>,
    order: seq<string>)

  /** `order` lists each configured provider exactly once, and every key is lower-case. */
  predicate Valid(m: Manager) {
    && (forall i, j | 0 <= i < j < |m.order| :: m.order[i] != m.order[j])
    && m.configs.Keys == (set p | p in m.order)
    && (forall i | 0 <= i < |m.order| :: Lower(m.order[i]) == m.order[i])
  }

  /** A fresh manager: empty caches, no providers. */
  function NewManager(): (m: Manager)
    ensures Valid(m)
    ensures m.tools == [] && m.resources == [] && m.configs == map[]
  {
    Manager([], [], map[], [])
  }

  // ---------------------------------------------------------------------------
  // Provider configuration
  // ---------------------------------------------------------------------------

  /**
   * `get_mcp_server_config`: a tool name without '_' has no provider; otherwise
   * the provider key is the lower-cased text before the first '_'.
   */
  function GetServerConfig(m: Manager, toolName: string): (r: Option<ServerConfig>)
    ensures !Contains(toolName, "_") ==> r == None
    ensures r.Some? <==> Contains(toolName, "_") && Lower(Before(toolName, "_")) in m.configs
    ensures r.Some? ==> r.value == m.configs[Lower(Before(toolName, "_"))]
  {
    if !Contains(toolName, "_") then None
    else
      var key := Lower(Before(toolName, "_"));
      if key in m.configs then Some(m.configs[key]) else None
  }

  /**
   * `add_provider`: stores the configuration under the lower-cased name,
   * replacing any previous one for that key; the caches and the other providers
   * are untouched.
   */
  function AddProvider(m: Manager, name: string, serverUrl: string, headers: map<string, string>): (m': Manager)
    ensures m'.configs.Keys == m.configs.Keys + {Lower(name)}
    ensures m'.configs[Lower(name)] == ServerConfig(serverUrl, headers)
    ensures forall k :: k in m.configs && k != Lower(name) ==> m'.configs[k] == m.configs[k]
    ensures m'.tools == m.tools && m'.resources == m.resources
    ensures Lower(name) in m.configs ==> m'.order == m.order
    ensures Lower(name) !in m.configs ==> m'.order == m.order + [Lower(name)]
    ensures Valid(m) ==> Valid(m')
  {
    var key := Lower(name);
    LowerIdempotent(name);
    var order := if key in m.configs then m.order else m.order + [key];
    m.(configs := m.configs[key := ServerConfig(serverUrl, headers)], order := order)
  }

  /**
   * Round trip: after `add_provider(p, url, headers)` with `p` free of '_', the
   * router's lookup `get_mcp_server_config(p + "_dummy")` (any suffix will do)
   * finds exactly that configuration.
   */
  lemma AddThenLookup(m: Manager, p: string, serverUrl: string, headers: map<string, string>, suffix: string)
    requires !Contains(p, "_")
    ensures GetServerConfig(AddProvider(m, p, serverUrl, headers), p + "_" + suffix) == Some(ServerConfig(serverUrl, headers))
  {
    UnderscoreUnbordered();
    BeforeJoined(p, "_", suffix);
  }

  /**
   * A provider whose name contains '_' is never reached by that lookup: the key
   * read back is the part of the name before its first '_', so the result is
   * whatever that shorter key held before the provider was added.
   */
  lemma UnderscoreProviderUnreachable(m: Manager, p: string, serverUrl: string, headers: map<string, string>, suffix: string)
    requires Contains(p, "_")
    ensures Lower(Before(p, "_")) != Lower(p)
    ensures GetServerConfig(AddProvider(m, p, serverUrl, headers), p + "_" + suffix) == GetServerConfig(m, Before(p, "_") + "_")
  {
    var q := Before(p, "_");
    assert |q| < |p| by {
      assert OccursAt(p, "_", |q|);
    }
    assert |Lower(q)| != |Lower(p)|;
    FindExtends(p, "_", "_" + suffix);
    assert p + "_" + suffix == p + ("_" + suffix);
    UnderscoreUnbordered();
    assert !Contains(q, "_") by {
      SplitHead(p, "_");
      SplitPiecesFree(p, "_");
    }
    BeforeJoined(q, "_", "");
    assert q + "_" + "" == q + "_";
    var i := Find(p, "_").value;
    assert (p + ("_" + suffix))[..i] == p[..i];
    assert Before(p + "_" + suffix, "_") == q;
  }

  // ---------------------------------------------------------------------------
  // Discovery of tools and resources
  // ---------------------------------------------------------------------------

  /** A tool as the SDK lists it; `None` stands for an attribute the object lacks. */
  datatype SdkTool = SdkTool(name: string, description: Option<Json>, inputSchema: Option<Json>)

  /** A resource as the SDK lists it; `None` stands for an attribute the object lacks. */
  datatype SdkResource = SdkResource(uri: string, name: string, description: Option<Json>, mimeType: Option<Json>)

  /** The answer to one listing call: the items, or an exception. */
  datatype Listing<T> = Listed(items: seq<T>) | ListingFailed

  /** What connecting to one provider's server yields. */
  datatype Discovery = ConnectFailed | Connected(tools: Listing<SdkTool>, resources: Listing<SdkResource>)

  /** The cache record for a listed tool: tagged with its provider, absent attributes defaulted. */
  function ToolRecord(provider: string, t: SdkTool): ToolInfo {
    ToolInfo(t.name, provider, t.description.GetOr(JStr("No description available")), t.inputSchema.GetOr(JObj(map[])))
  }

  /** The cache record for a listed resource: URI and name prefixed with the provider. */
  function ResourceRecord(provider: string, r: SdkResource): ResourceInfo {
    ResourceInfo(provider + "://" + r.uri, Upper(provider) + " " + r.name,
                 r.description.GetOr(JStr("")), r.mimeType.GetOr(JStr("text/plain")))
  }

  /** The tools one provider contributes. */
  function ToolsFrom(provider: string, d: Discovery): (r: seq<ToolInfo>)
    ensures forall k :: 0 <= k < |r| ==> r[k].provider == provider
    ensures d.ConnectFailed? || d.tools.ListingFailed? ==> r == []
    ensures d.Connected? && d.tools.Listed? ==>
      && |r| == |d.tools.items|
      && forall k :: 0 <= k < |r| ==>
        && r[k].name == d.tools.items[k].name
        && r[k].description == d.tools.items[k].description.GetOr(JStr("No description available"))
        && r[k].inputSchema == d.tools.items[k].inputSchema.GetOr(JObj(map[]))
  {
    if d.Connected? && d.tools.Listed?
    then seq(|d.tools.items|, k requires 0 <= k < |d.tools.items| => ToolRecord(provider, d.tools.items[k]))
    else []
  }

  /** The resources one provider contributes. */
  function ResourcesFrom(provider: string, d: Discovery): (r: seq<ResourceInfo>)
    ensures forall k :: 0 <= k < |r| ==> StartsWith(r[k].uri, provider + "://")
    ensures d.ConnectFailed? || d.resources.ListingFailed? ==> r == []
    ensures d.Connected? && d.resources.Listed? ==>
      && |r| == |d.resources.items|
      && forall k :: 0 <= k < |r| ==>
        && r[k].uri == provider + "://" + d.resources.items[k].uri
        && r[k].name == Upper(provider) + " " + d.resources.items[k].name
        && r[k].description == d.resources.items[k].description.GetOr(JStr(""))
        && r[k].mimeType == d.resources.items[k].mimeType.GetOr(JStr("text/plain"))
  {
    if d.Connected? && d.resources.Listed?
    then seq(|d.resources.items|, k requires 0 <= k < |d.resources.items| => ResourceRecord(provider, d.resources.items[k]))
    else []
  }

  /** The caches built by visiting `order` in turn; a failure with one provider skips only that provider's part. */
  function Harvest(order: seq<string>, configs: map<string, ServerConfig>, discover: string -> Discovery): (r: (seq<ToolInfo>, seq<ResourceInfo>))
    requires forall i | 0 <= i < |order| :: order[i] in configs
    ensures forall t :: t in r.0 ==> t.provider in order
    ensures forall t :: t in r.0 ==> discover(configs[t.provider].serverUrl).Connected?
    ensures forall x :: x in r.1 ==> exists i :: 0 <= i < |order| && StartsWith(x.uri, order[i] + "://")
    decreases |order|
  {
    if order == [] then ([], [])
    else
      var p := order[0];
      var d := discover(configs[p].serverUrl);
      var rest := Harvest(order[1..], configs, discover);
      assert forall x :: x in rest.1 ==> exists i :: 0 <= i < |order| && StartsWith(x.uri, order[i] + "://") by {
        forall x | x in rest.1 ensures exists i :: 0 <= i < |order| && StartsWith(x.uri, order[i] + "://") {
          var i :| 0 <= i < |order[1..]| && StartsWith(x.uri, order[1..][i] + "://");
          assert StartsWith(x.uri, order[i + 1] + "://");
        }
      }
      (ToolsFrom(p, d) + rest.0, ResourcesFrom(p, d) + rest.1)
  }

  /**
   * `initialize_mcp_servers`: both caches are emptied first; without the SDK
   * they stay empty, otherwise every provider's server is asked for its tools
   * and resources in turn. The configuration is never changed.
   */
  function Initialize(m: Manager, sdkAvailable: bool, discover: string -> Discovery): (m': Manager)
    requires Valid(m)
    ensures m'.configs == m.configs && m'.order == m.order
    ensures !sdkAvailable ==> m'.tools == [] && m'.resources == []
    ensures forall t :: t in m'.tools ==> t.provider in m.configs && discover(m.configs[t.provider].serverUrl).Connected?
    ensures forall x :: x in m'.resources ==> exists p :: p in m.configs && StartsWith(x.uri, p + "://")
  {
    if !sdkAvailable then m.(tools := [], resources := [])
    else
      var caches := Harvest(m.order, m.configs, discover);
      m.(tools := caches.0, resources := caches.1)
  }

  /** The blocks one after another. */
  function Concat<T>(blocks: seq<seq<T>>): seq<T>
    decreases |blocks|
  {
    if blocks == [] then [] else blocks[0] + Concat(blocks[1..])
  }

  /** Every element of every block is in the concatenation. */
  lemma {:induction false} ConcatCovers<T>(blocks: seq<seq<T>>)
    ensures forall i, x :: 0 <= i < |blocks| && x in blocks[i] ==> x in Concat(blocks)
    decreases |blocks|
  {
    if blocks != [] {
      ConcatCovers(blocks[1..]);
      forall i, x | 0 <= i < |blocks| && x in blocks[i] ensures x in Concat(blocks) {
        if i > 0 {
          assert blocks[i] == blocks[1..][i - 1];
        }
      }
    }
  }

  /** What each provider of `order` contributes to the tool cache, provider by provider. */
  function ToolBlocks(order: seq<string>, configs: map<string, ServerConfig>, discover: string -> Discovery): (blocks: seq<seq<ToolInfo>>)
    requires forall i | 0 <= i < |order| :: order[i] in configs
    ensures |blocks| == |order|
  {
    seq(|order|, i requires 0 <= i < |order| => ToolsFrom(order[i], discover(configs[order[i]].serverUrl)))
  }

  /** What each provider of `order` contributes to the resource cache, provider by provider. */
  function ResourceBlocks(order: seq<string>, configs: map<string, ServerConfig>, discover: string -> Discovery): (blocks: seq<seq<ResourceInfo>>)
    requires forall i | 0 <= i < |order| :: order[i] in configs
    ensures |blocks| == |order|
  {
    seq(|order|, i requires 0 <= i < |order| => ResourcesFrom(order[i], discover(configs[order[i]].serverUrl)))
  }

  /**
   * Nothing is lost and nothing is reordered: the caches hold every provider's
   * listed tools and resources, one provider after another in `order`.
   */
  lemma {:induction false} HarvestIsConcat(order: seq<string>, configs: map<string, ServerConfig>, discover: string -> Discovery)
    requires forall i | 0 <= i < |order| :: order[i] in configs
    ensures Harvest(order, configs, discover).0 == Concat(ToolBlocks(order, configs, discover))
    ensures Harvest(order, configs, discover).1 == Concat(ResourceBlocks(order, configs, discover))
    decreases |order|
  {
    if order != [] {
      HarvestIsConcat(order[1..], configs, discover);
      assert ToolBlocks(order, configs, discover)[1..] == ToolBlocks(order[1..], configs, discover);
      assert ResourceBlocks(order, configs, discover)[1..] == ResourceBlocks(order[1..], configs, discover);
    }
  }

  /**
   * `initialize_mcp_servers` with the SDK present: the tool cache is the
   * providers' listed tools in the order the providers were added, and likewise
   * the resource cache.
   */
  lemma InitializeCachesAll(m: Manager, discover: string -> Discovery)
    requires Valid(m)
    ensures forall i | 0 <= i < |m.order| :: m.order[i] in m.configs
    ensures Initialize(m, true, discover).tools == Concat(ToolBlocks(m.order, m.configs, discover))
    ensures Initialize(m, true, discover).resources == Concat(ResourceBlocks(m.order, m.configs, discover))
  {
    assert forall i | 0 <= i < |m.order| :: m.order[i] in m.configs;
    HarvestIsConcat(m.order, m.configs, discover);
  }

  /** With the SDK present, every tool and resource a configured provider's server lists ends up cached. */
  lemma InitializeKeepsEveryListing(m: Manager, discover: string -> Discovery, p: string)
    requires Valid(m) && p in m.configs
    ensures forall t :: t in ToolsFrom(p, discover(m.configs[p].serverUrl)) ==> t in Initialize(m, true, discover).tools
    ensures forall x :: x in ResourcesFrom(p, discover(m.configs[p].serverUrl)) ==> x in Initialize(m, true, discover).resources
  {
    InitializeCachesAll(m, discover);
    var i :| 0 <= i < |m.order| && m.order[i] == p;
    ConcatCovers(ToolBlocks(m.order, m.configs, discover));
    ConcatCovers(ResourceBlocks(m.order, m.configs, discover));
    assert ToolBlocks(m.order, m.configs, discover)[i] == ToolsFrom(p, discover(m.configs[p].serverUrl));
    assert ResourceBlocks(m.order, m.configs, discover)[i] == ResourcesFrom(p, discover(m.configs[p].serverUrl));
  }

  /**
   * The provider of a cached resource can be read back from its URI: when no
   * provider name contains "://", the text before the first "://" of every
   * cached URI is a configured, lower-case provider.
   */
  lemma ResourceUriNamesProvider(m: Manager, sdkAvailable: bool, discover: string -> Discovery, x: ResourceInfo)
    requires Valid(m)
    requires forall p :: p in m.configs ==> !Contains(p, "://")
    requires x in Initialize(m, sdkAvailable, discover).resources
    ensures Contains(x.uri, "://")
    ensures Before(x.uri, "://") in m.configs
    ensures Lower(Before(x.uri, "://")) == Before(x.uri, "://")
  {
    var p :| p in m.configs && StartsWith(x.uri, p + "://");
    SchemeSeparatorUnbordered();
    PrefixIffBefore(x.uri, p, "://");
    assert p in m.order;
  }
}

=== FILE: replay_guard.dfy ===
/**
 * The replay guard: per-DID tables of consumed nonces, the check-and-record
 * step, the purge of expired records and the 60-second trigger that runs it.
 */
module ReplayGuard {
  import opened AuthTime

  /** DID -> nonce -> time the nonce was consumed (microseconds). */
  type NonceTable = map<string, map<string, int>>

  /** The process-wide replay state: the nonce table and the time of the last purge. */
  datatype Guard = Guard(used: NonceTable, lastCleanup: int)

  /** The state at process start: no nonce recorded, last purge at start-up time. */
  function InitialGuard(startedAt: int): (g: Guard)
    ensures forall d, n :: !Recorded(g.used, d, n)
    ensures g.lastCleanup == startedAt
  {
    Guard(map[], startedAt)
  }

  /** The pair (did, nonce) has been consumed. */
  predicate Recorded(t: NonceTable, did: string, nonce: string) {
    did in t && nonce in t[did]
  }

  /** The table with (did, nonce) recorded as consumed at `now`. */
  function Record(t: NonceTable, did: string, nonce: string, now: int): NonceTable {
    var inner := if did in t then t[did] else map[];
    t[did := inner[nonce := now]]
  }

  /** Every record of `t` is in `t'` with the same time. */
  ghost predicate Keeps(t: NonceTable, t': NonceTable) {
    forall d, n :: Recorded(t, d, n) ==> Recorded(t', d, n) && t'[d][n] == t[d][n]
  }

  // ---------------------------------------------------------------------------
  // verify_and_record_nonce
  // ---------------------------------------------------------------------------

  datatype NonceVerdict = NonceFresh | NonceAlreadyUsed

  /**
   * Check-and-record: a pair already present is refused and the table is left
   * alone; otherwise exactly that pair is added, stamped with `now`.
   */
  function VerifyAndRecord(t: NonceTable, did: string, nonce: string, now: int): (r: (NonceVerdict, NonceTable))
    ensures Recorded(t, did, nonce) ==> r.0 == NonceAlreadyUsed && r.1 == t
    ensures !Recorded(t, did, nonce) ==> r.0 == NonceFresh
    ensures Recorded(r.1, did, nonce)
    ensures !Recorded(t, did, nonce) ==> r.1[did][nonce] == now
    ensures Keeps(t, r.1)
    ensures forall d, n :: Recorded(r.1, d, n) && (d != did || n != nonce) ==> Recorded(t, d, n)
    ensures r.1.Keys == t.Keys + {did}
  {
    if Recorded(t, did, nonce) then (NonceAlreadyUsed, t)
    else (NonceFresh, Record(t, did, nonce, now))
  }

  /** Two uses of one pair with no purge between them: the first passes, the second is refused. */
  lemma SecondUseRejected(t: NonceTable, did: string, nonce: string, now1: int, now2: int)
    requires !Recorded(t, did, nonce)
    ensures VerifyAndRecord(t, did, nonce, now1).0 == NonceFresh
    ensures VerifyAndRecord(VerifyAndRecord(t, did, nonce, now1).1, did, nonce, now2).0 == NonceAlreadyUsed
  {
  }

  // ---------------------------------------------------------------------------
  // cleanup_expired_nonces
  // ---------------------------------------------------------------------------

  /** A record consumed at `at` has expired at `now`: more than six minutes have passed. */
  predicate Expired(now: int, at: int) {
    now - at > NonceWindow
  }

  /** The records of one DID that survive a purge at `now`. */
  function Survivors(m: map<string, int>, now: int): (r: map<string, int>)
    ensures forall n :: n in r <==> n in m && !Expired(now, m[n])
    ensures forall n :: n in r ==> r[n] == m[n]
  {
    map n | n in m && !Expired(now, m[n]) :: m[n]
  }

  /**
   * The table after a purge at `now`: exactly the unexpired records, with their
   * times, and no DID left without a nonce.
   */
  function Purge(t: NonceTable, now: int): (r: NonceTable)
    ensures forall d, n :: Recorded(r, d, n) <==> Recorded(t, d, n) && !Expired(now, t[d][n])
    ensures forall d, n :: Recorded(r, d, n) ==> Recorded(t, d, n) && r[d][n] == t[d][n]
    ensures forall d :: d in r ==> r[d] != map[]
  {
    map d | d in t && Survivors(t[d], now) != map[] :: Survivors(t[d], now)
  }

  /** A DID disappears from the table exactly when every one of its nonces has expired. */
  lemma EntryDroppedIff(t: NonceTable, now: int, did: string)
    requires did in t
    ensures did !in Purge(t, now) <==> forall n :: n in t[did] ==> Expired(now, t[did][n])
  {
    if did !in Purge(t, now) {
      forall n | n in t[did] ensures Expired(now, t[did][n]) {
        assert !Recorded(Purge(t, now), did, n);
      }
    } else {
      var n :| n in Purge(t, now)[did];
      assert Recorded(Purge(t, now), did, n);
    }
  }

  /** Purging twice at the same instant removes nothing more. */
  lemma PurgeIdempotent(t: NonceTable, now: int)
    ensures Purge(Purge(t, now), now) == Purge(t, now)
  {
    var p := Purge(t, now);
    var q := Purge(p, now);
    forall d | d in p ensures d in q && q[d] == p[d] {
      assert Survivors(p[d], now) == p[d];
    }
    assert q.Keys == p.Keys;
  }

  /** The set of consumed (did, nonce) pairs. */
  function Pairs(t: NonceTable): set<(string, string)> {
    set d, n | d in t && n in t[d] :: (d, n)
  }

  /** The nonces of `did` replaced by `m`; the DID is dropped when `m` is empty. */
  function Replace(t: NonceTable, did: string, m: map<string, int>): NonceTable {
    if m == map[] then t - {did} else t[did := m]
  }

  lemma CountStep<T>(all: set<T>, cur: set<T>, x: T)
    requires cur <= all && x in cur
    ensures |all - (cur - {x})| == |all - cur| + 1
  {
    assert all - (cur - {x}) == (all - cur) + {x};
  }

  /** The pairs of one DID for the nonces `ns`. */
  function Tagged(did: string, ns: set<string>): set<(string, string)> {
    set n | n in ns :: (did, n)
  }

  lemma {:induction false} TaggedCard(did: string, ns: set<string>)
    ensures |Tagged(did, ns)| == |ns|
    decreases ns
  {
    if ns != {} {
      var x :| x in ns;
      TaggedCard(did, ns - {x});
      assert Tagged(did, ns) == Tagged(did, ns - {x}) + {(did, x)};
    }
  }

  lemma PairsOfReplace(r: NonceTable, did: string, m: map<string, int>)
    requires did in r && m.Keys <= r[did].Keys
    ensures Pairs(Replace(r, did, m)) == Pairs(r) - Tagged(did, r[did].Keys - m.Keys)
  {
    var r' := Replace(r, did, m);
    var dropped := Tagged(did, r[did].Keys - m.Keys);
    forall p | p in Pairs(r) - dropped ensures p in Pairs(r') {
      assert Recorded(r, p.0, p.1);
      if p.0 == did {
        assert p.1 in m;
      }
      assert Recorded(r', p.0, p.1);
    }
    forall p | p in Pairs(r') ensures p in Pairs(r) - dropped {
      assert Recorded(r', p.0, p.1);
      assert Recorded(r, p.0, p.1);
    }
  }

  /** Shrinking the nonces of one DID removes exactly the dropped nonces from the pairs. */
  lemma ReplaceCount(t: NonceTable, r: NonceTable, did: string, m: map<string, int>)
    requires did in r && Pairs(r) <= Pairs(t)
    requires m.Keys <= r[did].Keys
    ensures Pairs(Replace(r, did, m)) <= Pairs(t)
    ensures |Pairs(t) - Pairs(Replace(r, did, m))| == |Pairs(t) - Pairs(r)| + |r[did].Keys - m.Keys|
  {
    var dropped := Tagged(did, r[did].Keys - m.Keys);
    PairsOfReplace(r, did, m);
    assert dropped <= Pairs(r) by {
      forall p | p in dropped ensures p in Pairs(r) {
        assert Recorded(r, p.0, p.1);
      }
    }
    assert Pairs(t) - Pairs(Replace(r, did, m)) == (Pairs(t) - Pairs(r)) + dropped;
    TaggedCard(did, r[did].Keys - m.Keys);
  }

  /** The inner loop of the purge: pop every expired nonce of one DID, counting them. */
  method DropExpired(m0: map<string, int>, now: int) returns (m: map<string, int>, popped: nat)
    ensures m == Survivors(m0, now)
    ensures m.Keys <= m0.Keys
    ensures popped == |m0.Keys - m.Keys|
  {
    m := m0;
    popped := 0;
    var expired := set n | n in m && Expired(now, m[n]);
    while expired != {}
      invariant expired <= m.Keys && m.Keys <= m0.Keys
      invariant forall n :: n in m ==> m[n] == m0[n]
      invariant forall n :: n in m0 && !Expired(now, m0[n]) ==> n in m
      invariant forall n :: n in m && Expired(now, m[n]) ==> n in expired
      invariant popped == |m0.Keys - m.Keys|
      decreases expired
    {
      var n :| n in expired;
      CountStep(m0.Keys, m.Keys, n);
      assert (m - {n}).Keys == m.Keys - {n};
      m := m - {n};
      popped := popped + 1;
      expired := expired - {n};
    }
  }

  /** The table part-way through the purge: DIDs in `todo` are untouched, the others purged. */
  function PartlyPurged(t: NonceTable, todo: set<string>, now: int): NonceTable {
    map d | d in t && (d in todo || Survivors(t[d], now) != map[]) ::
      if d in todo then t[d] else Survivors(t[d], now)
  }

  lemma PartlyPurgedStep(t: NonceTable, todo: set<string>, did: string, now: int)
    requires did in todo && todo <= t.Keys
    ensures did in PartlyPurged(t, todo, now) && PartlyPurged(t, todo, now)[did] == t[did]
    ensures Replace(PartlyPurged(t, todo, now), did, Survivors(t[did], now))
         == PartlyPurged(t, todo - {did}, now)
  {
  }

  lemma PartlyPurgedEnds(t: NonceTable, now: int)
    ensures PartlyPurged(t, t.Keys, now) == t
    ensures PartlyPurged(t, {}, now) == Purge(t, now)
  {
  }

  /**
   * `cleanup_expired_nonces` as the source writes it: for every DID, pop each
   * expired nonce and count it, then drop the DID if nothing is left. The result
   * is the purge, and the count is the number of records removed.
   */
  method CleanupExpiredNonces(t: NonceTable, now: int) returns (r: NonceTable, cleaned: nat)
    ensures r == Purge(t, now)
    ensures cleaned == |Pairs(t) - Pairs(r)|
  {
    r := t;
    cleaned := 0;
    var todo := t.Keys;
    PartlyPurgedEnds(t, now);
    while todo != {}
      invariant todo <= t.Keys
      invariant r == PartlyPurged(t, todo, now)
      invariant Pairs(r) <= Pairs(t)
      invariant cleaned == |Pairs(t) - Pairs(r)|
      decreases todo
    {
      var did :| did in todo;
      PartlyPurgedStep(t, todo, did, now);
      var m, popped := DropExpired(r[did], now);
      ReplaceCount(t, r, did, m);
      cleaned := cleaned + popped;
      r := Replace(r, did, m);
      todo := todo - {did};
    }
  }

  // ---------------------------------------------------------------------------
  // check_and_cleanup_if_needed
  // ---------------------------------------------------------------------------

  /**
   * The per-request trigger: purge and restart the clock only when more than
   * 60 seconds have passed since the last purge; otherwise change nothing.
   */
  function CheckAndCleanup(g: Guard, now: int): (r: Guard)
    ensures now - g.lastCleanup > CleanupInterval ==> r.used == Purge(g.used, now) && r.lastCleanup == now
    ensures now - g.lastCleanup <= CleanupInterval ==> r == g
  {
    if now - g.lastCleanup > CleanupInterval then Guard(Purge(g.used, now), now) else g
  }

  /** Neither the trigger nor the purge ever drops a record younger than six minutes. */
  lemma CheckAndCleanupKeepsYoung(g: Guard, now: int, did: string, nonce: string)
    requires Recorded(g.used, did, nonce) && !Expired(now, g.used[did][nonce])
    ensures Recorded(CheckAndCleanup(g, now).used, did, nonce)
    ensures CheckAndCleanup(g, now).used[did][nonce] == g.used[did][nonce]
  {
  }

  /** Running the trigger twice at one instant is the same as running it once. */
  lemma CheckAndCleanupSettles(g: Guard, now: int)
    ensures CheckAndCleanup(CheckAndCleanup(g, now), now) == CheckAndCleanup(g, now)
  {
  }

  /**
   * Memory bound: no record is more than six minutes older than the last purge.
   */
  ghost predicate AgedWithin(g: Guard) {
    forall d, n :: Recorded(g.used, d, n) ==> g.lastCleanup - g.used[d][n] <= NonceWindow
  }

  /**
   * With a clock that does not run backwards, the trigger keeps the memory bound,
   * and right after it every record is at most seven minutes (six plus the
   * 60-second interval) old.
   */
  lemma CheckAndCleanupBoundsAge(g: Guard, now: int)
    requires AgedWithin(g) && g.lastCleanup <= now
    ensures AgedWithin(CheckAndCleanup(g, now))
    ensures CheckAndCleanup(g, now).lastCleanup <= now
    ensures forall d, n :: Recorded(CheckAndCleanup(g, now).used, d, n) ==>
      now - CheckAndCleanup(g, now).used[d][n] <= NonceWindow + CleanupInterval
  {
  }

  /** Recording a nonce at a time not before the last purge keeps the memory bound. */
  lemma RecordKeepsAge(g: Guard, did: string, nonce: string, now: int)
    requires AgedWithin(g) && g.lastCleanup <= now
    ensures AgedWithin(g.(used := VerifyAndRecord(g.used, did, nonce, now).1))
  {
  }
}

=== FILE: text.dfy ===
/**
 * The string operations the middleware and routers rely on, written the way
 * Python's `str` methods behave: `lower`/`upper` (ASCII letters only),
 * `find` and `in`, `split(sep)`, `split()` on whitespace, `startswith`
 * and single-character `replace`.
 */
module Text {
  import opened Common

  // ---------------------------------------------------------------------------
  // Case mapping
  // ---------------------------------------------------------------------------

  function LowerChar(c: char): char {
    if 'A' <= c <= 'Z' then (c as int + 32) as char else c
  }

  function UpperChar(c: char): char {
    if 'a' <= c <= 'z' then (c as int - 32) as char else c
  }

  /** `s.lower()` restricted to ASCII letters; the length never changes. */
  function Lower(s: string): (r: string)
    ensures |r| == |s|
    ensures forall i :: 0 <= i < |s| ==> r[i] == LowerChar(s[i])
  {
    seq(|s|, i requires 0 <= i < |s| => LowerChar(s[i]))
  }

  /** `s.upper()` restricted to ASCII letters. */
  function Upper(s: string): (r: string)
    ensures |r| == |s|
    ensures forall i :: 0 <= i < |s| ==> r[i] == UpperChar(s[i])
  {
    seq(|s|, i requires 0 <= i < |s| => UpperChar(s[i]))
  }

  /** Lower-casing twice is lower-casing once. */
  lemma LowerIdempotent(s: string)
    ensures Lower(Lower(s)) == Lower(s)
  {
  }

  /** Lower-casing distributes over concatenation. */
  lemma LowerAppend(a: string, b: string)
    ensures Lower(a + b) == Lower(a) + Lower(b)
  {
    assert forall i :: 0 <= i < |a + b| ==> Lower(a + b)[i] == (Lower(a) + Lower(b))[i];
  }

  // ---------------------------------------------------------------------------
  // Searching
  // ---------------------------------------------------------------------------

  /** `pat` occurs in `s` starting at index `i`. */
  predicate OccursAt(s: string, pat: string, i: int) {
    0 <= i && i + |pat| <= |s| && s[i..i + |pat|] == pat
  }

  /** `s.find(pat, from)`: the first occurrence at or after `from` (`None` for Python's -1). */
  function FindFrom(s: string, pat: string, from: nat): (r: Option<nat>)
    ensures r.Some? ==> from <= r.value && OccursAt(s, pat, r.value)
    ensures r.Some? ==> forall j :: from <= j < r.value ==> !OccursAt(s, pat, j)
    ensures r.None? ==> forall j :: from <= j ==> !OccursAt(s, pat, j)
    decreases |s| - from
  {
    if from + |pat| > |s| then None
    else if s[from..from + |pat|] == pat then Some(from)
    else FindFrom(s, pat, from + 1)
  }

  /** `s.find(pat)`: the first occurrence of `pat` in `s`. */
  function Find(s: string, pat: string): (r: Option<nat>)
    ensures r.Some? ==> OccursAt(s, pat, r.value)
    ensures r.Some? ==> forall j :: 0 <= j < r.value ==> !OccursAt(s, pat, j)
    ensures r.None? ==> forall j :: !OccursAt(s, pat, j)
  {
    FindFrom(s, pat, 0)
  }

  /** Python's `pat in s`. */
  predicate Contains(s: string, pat: string) {
    Find(s, pat).Some?
  }

  /** `pat in s` holds exactly when there is a position where `pat` occurs. */
  lemma ContainsIff(s: string, pat: string)
    ensures Contains(s, pat) <==> exists i :: OccursAt(s, pat, i)
  {
    if exists i :: OccursAt(s, pat, i) {
      var i :| OccursAt(s, pat, i);
      assert Find(s, pat).Some?;
    }
  }

  /** An occurrence inside a prefix or suffix of a string is an occurrence in the string. */
  lemma OccursInPart(a: string, b: string, pat: string, j: int)
    ensures OccursAt(a, pat, j) ==> OccursAt(a + b, pat, j)
    ensures OccursAt(b, pat, j) ==> OccursAt(a + b, pat, |a| + j)
  {
    if OccursAt(a, pat, j) {
      assert (a + b)[j..j + |pat|] == a[j..j + |pat|];
    }
    if OccursAt(b, pat, j) {
      assert (a + b)[|a| + j..|a| + j + |pat|] == b[j..j + |pat|];
    }
  }

  /** `s.startswith(p)`. */
  predicate StartsWith(s: string, p: string) {
    |p| <= |s| && s[..|p|] == p
  }

  // ---------------------------------------------------------------------------
  // s.split(sep) with an explicit, non-empty separator
  // ---------------------------------------------------------------------------

  /** `s.split(sep)`: the pieces between successive non-overlapping occurrences of `sep`. */
  function Split(s: string, sep: string): (parts: seq<string>)
    requires sep != []
    ensures |parts| >= 1
    decreases |s|
  {
    match Find(s, sep)
    case None => [s]
    case Some(i) => [s[..i]] + Split(s[i + |sep|..], sep)
  }

  /** `sep.join(parts)`. */
  function Join(parts: seq<string>, sep: string): string {
    if |parts| == 0 then ""
    else if |parts| == 1 then parts[0]
    else parts[0] + sep + Join(parts[1..], sep)
  }

  /** Joining a leading piece in front of at least one more piece inserts one separator. */
  lemma JoinCons(head: string, parts: seq<string>, sep: string)
    requires |parts| >= 1
    ensures Join([head] + parts, sep) == head + sep + Join(parts, sep)
  {
    assert ([head] + parts)[1..] == parts;
  }

  /** Splitting loses nothing: joining the pieces back with the separator gives the input. */
  lemma {:induction false} JoinSplit(s: string, sep: string)
    requires sep != []
    ensures Join(Split(s, sep), sep) == s
    decreases |s|
  {
    match Find(s, sep)
    case None =>
    case Some(i) =>
      var head := s[..i];
      var rest := s[i + |sep|..];
      var parts := Split(rest, sep);
      JoinSplit(rest, sep);
      assert Split(s, sep) == [head] + parts;
      JoinCons(head, parts, sep);
      assert s[i..i + |sep|] == sep;
      assert s == head + sep + rest;
  }

  /** No piece of a split contains the separator. */
  lemma {:induction false} SplitPiecesFree(s: string, sep: string)
    requires sep != []
    ensures forall k :: 0 <= k < |Split(s, sep)| ==> !Contains(Split(s, sep)[k], sep)
    decreases |s|
  {
    match Find(s, sep)
    case None =>
    case Some(i) =>
      var rest := s[i + |sep|..];
      SplitPiecesFree(rest, sep);
      var head := s[..i];
      assert head + s[i..] == s;
      forall j ensures !OccursAt(head, sep, j) {
        OccursInPart(head, s[i..], sep, j);
      }
  }

  /** The first piece: the text before the first `sep`, or all of `s` if there is none. */
  function Before(s: string, sep: string): (r: string)
    requires sep != []
    ensures StartsWith(s, r)
    ensures !Contains(s, sep) ==> r == s
    ensures Contains(s, sep) ==> OccursAt(s, sep, |r|)
  {
    match Find(s, sep)
    case None => s
    case Some(i) => s[..i]
  }

  /** `s.split(sep)[0]` is the text before the first separator. */
  lemma SplitHead(s: string, sep: string)
    requires sep != []
    ensures Split(s, sep)[0] == Before(s, sep)
  {
  }

  /** A separator none of whose proper prefixes is also a suffix, such as "_" or "://". */
  predicate Unbordered(sep: string) {
    forall m :: 0 < m < |sep| ==> sep[..m] != sep[|sep| - m..]
  }

  /** An occurrence of `sep` straddling the end of `p` in `p + sep + x` is a border of `sep`. */
  lemma StraddleIsBorder(p: string, sep: string, x: string, j: int)
    requires OccursAt(p + sep + x, sep, j)
    requires j < |p| < j + |sep|
    ensures 0 < j + |sep| - |p| < |sep|
    ensures sep[..j + |sep| - |p|] == sep[|p| - j..]
  {
    var s := p + sep + x;
    var m := j + |sep| - |p|;
    assert sep[..m] == s[|p|..|p| + m];
    assert sep[|sep| - m..] == s[|p|..|p| + m];
  }

  /**
   * For an unbordered separator, the first occurrence of `sep` in `p + sep + x` is the
   * one right after `p` when `p` does not contain `sep`: the prefix is recovered.
   */
  lemma FindAfterPrefix(p: string, sep: string, x: string)
    requires sep != [] && Unbordered(sep)
    requires !Contains(p, sep)
    ensures Find(p + sep + x, sep) == Some(|p|)
  {
    var s := p + sep + x;
    assert s[|p|..|p| + |sep|] == sep;
    assert OccursAt(s, sep, |p|);
    var r := Find(s, sep);
    assert r.Some?;
    forall j | 0 <= j < |p| ensures !OccursAt(s, sep, j) {
      if j + |sep| <= |p| {
        assert s[j..j + |sep|] == p[j..j + |sep|];
        assert !OccursAt(p, sep, j);
      } else if OccursAt(s, sep, j) {
        StraddleIsBorder(p, sep, x, j);
      }
    }
  }

  lemma UnderscoreUnbordered()
    ensures Unbordered("_")
  {
  }

  lemma SchemeSeparatorUnbordered()
    ensures Unbordered("://")
  {
    assert "://"[..1] == ":" && "://"[2..] == "/";
    assert "://"[..2] == ":/" && "://"[1..] == "//";
  }

  /** `(p + sep + x).split(sep)[0] == p` for an unbordered separator absent from `p`. */
  lemma BeforeJoined(p: string, sep: string, x: string)
    requires sep != [] && Unbordered(sep)
    requires !Contains(p, sep)
    ensures Before(p + sep + x, sep) == p
    ensures Contains(p + sep + x, sep)
  {
    FindAfterPrefix(p, sep, x);
    assert (p + sep + x)[..|p|] == p;
  }

  /** Text appended after an occurrence of `sep` does not move the first occurrence. */
  lemma FindExtends(p: string, sep: string, x: string)
    requires Contains(p, sep)
    ensures Find(p + x, sep) == Find(p, sep)
  {
    var i := Find(p, sep).value;
    OccursInPart(p, x, sep, i);
    forall j | 0 <= j < i ensures !OccursAt(p + x, sep, j) {
      assert !OccursAt(p, sep, j);
      assert j + |sep| <= |p|;
      assert (p + x)[j..j + |sep|] == p[j..j + |sep|];
    }
  }

  /**
   * For an unbordered separator absent from `p`: `s` starts with `p + sep`
   * exactly when `p` is the text before the first `sep` in `s`.
   */
  lemma PrefixIffBefore(s: string, p: string, sep: string)
    requires sep != [] && Unbordered(sep)
    requires !Contains(p, sep)
    ensures StartsWith(s, p + sep) <==> Contains(s, sep) && Before(s, sep) == p
  {
    if StartsWith(s, p + sep) {
      var x := s[|p| + |sep|..];
      assert s == p + sep + x;
      BeforeJoined(p, sep, x);
    }
    if Contains(s, sep) && Before(s, sep) == p {
      assert OccursAt(s, sep, |p|);
      assert s[..|p| + |sep|] == s[..|p|] + s[|p|..|p| + |sep|];
    }
  }

  // ---------------------------------------------------------------------------
  // s.split() on runs of whitespace
  // ---------------------------------------------------------------------------

  /** The characters Python's `str.split()` treats as whitespace. */
  predicate IsSpace(c: char) {
    || c == ' ' || c == '\t' || c == '\n' || c == '\r' || c == '\U{B}' || c == '\U{C}'
    || ('\U{1C}' <= c <= '\U{1F}') || c == '\U{85}' || c == '\U{A0}' || c == '\U{1680}'
    || ('\U{2000}' <= c <= '\U{200A}') || c == '\U{2028}' || c == '\U{2029}'
    || c == '\U{202F}' || c == '\U{205F}' || c == '\U{3000}'
  }

  /** A word of `split()`: non-empty and free of whitespace. */
  predicate IsWord(w: string) {
    w != [] && forall i :: 0 <= i < |w| ==> !IsSpace(w[i])
  }

  /** Length of the leading run of non-whitespace characters. */
  function RunLength(s: string): (k: nat)
    ensures k <= |s|
    ensures forall i :: 0 <= i < k ==> !IsSpace(s[i])
    ensures k < |s| ==> IsSpace(s[k])
  {
    if s == [] || IsSpace(s[0]) then 0 else 1 + RunLength(s[1..])
  }

  /** `s.split()`: the maximal whitespace-free runs of `s`, in order. */
  function Words(s: string): (ws: seq<string>)
    ensures forall k :: 0 <= k < |ws| ==> IsWord(ws[k])
    decreases |s|
  {
    if s == [] then []
    else if IsSpace(s[0]) then Words(s[1..])
    else
      var k := RunLength(s);
      [s[..k]] + Words(s[k..])
  }

  /** `split()` yields nothing exactly when the text is empty or all whitespace. */
  lemma {:induction false} WordsEmptyIff(s: string)
    ensures Words(s) == [] <==> forall i :: 0 <= i < |s| ==> IsSpace(s[i])
    decreases |s|
  {
    if s != [] && IsSpace(s[0]) {
      WordsEmptyIff(s[1..]);
      assert forall i :: 1 <= i < |s| ==> s[i] == s[1..][i - 1];
    }
  }

  lemma RunLengthOfWord(w: string, t: string)
    requires IsWord(w)
    requires t == [] || IsSpace(t[0])
    ensures RunLength(w + t) == |w|
    decreases |w|
  {
    if |w| > 1 {
      assert (w + t)[1..] == w[1..] + t;
      RunLengthOfWord(w[1..], t);
    }
  }

  /** Joining words with single spaces and splitting on whitespace gives the words back. */
  lemma {:induction false} WordsJoin(ws: seq<string>)
    requires forall k :: 0 <= k < |ws| ==> IsWord(ws[k])
    ensures Words(Join(ws, " ")) == ws
    decreases |ws|
  {
    if |ws| == 1 {
      var w := ws[0];
      RunLengthOfWord(w, "");
      assert w + "" == w;
      assert w[..|w|] == w && w[|w|..] == "";
      assert Words(w) == [w] + Words("");
    } else if |ws| > 1 {
      var w := ws[0];
      var rest := Join(ws[1..], " ");
      var s := w + " " + rest;
      RunLengthOfWord(w, " " + rest);
      assert s == w + (" " + rest);
      assert s[..|w|] == w;
      assert s[|w|..] == " " + rest;
      assert (" " + rest)[1..] == rest;
      WordsJoin(ws[1..]);
      assert Words(s) == [w] + Words(rest);
    }
  }

  // ---------------------------------------------------------------------------
  // Replacement and decimal rendering
  // ---------------------------------------------------------------------------

  /** `s.replace(c, rep)` for a single-character pattern. */
  function ReplaceChar(s: string, c: char, rep: string): (r: string)
    ensures c !in s ==> r == s
  {
    if s == [] then []
    else (if s[0] == c then rep else [s[0]]) + ReplaceChar(s[1..], c, rep)
  }

  lemma {:induction false} ReplaceCharAppend(a: string, b: string, c: char, rep: string)
    ensures ReplaceChar(a + b, c, rep) == ReplaceChar(a, c, rep) + ReplaceChar(b, c, rep)
    decreases |a|
  {
    if a == [] {
      assert a + b == b;
    } else {
      assert (a + b)[0] == a[0];
      assert (a + b)[1..] == a[1..] + b;
      ReplaceCharAppend(a[1..], b, c, rep);
    }
  }

  /** `str(n)` for a non-negative integer. */
  function Decimal(n: nat): (r: string)
    ensures r != []
    ensures forall i :: 0 <= i < |r| ==> '0' <= r[i] <= '9'
  {
    if n < 10 then ["0123456789"[n]]
    else Decimal(n / 10) + ["0123456789"[n % 10]]
  }

  /** Distinct numbers are rendered differently: the rendering can be read back. */
  lemma {:induction false} DecimalInjective(a: nat, b: nat)
    requires Decimal(a) == Decimal(b)
    ensures a == b
    decreases a
  {
    var digits := "0123456789";
    assert forall i, j :: 0 <= i < 10 && 0 <= j < 10 && digits[i] == digits[j] ==> i == j;
    if a >= 10 && b >= 10 {
      var da, db := Decimal(a), Decimal(b);
      assert da[|da| - 1] == digits[a % 10] && db[|db| - 1] == digits[b % 10];
      assert da[..|da| - 1] == Decimal(a / 10) && db[..|db| - 1] == Decimal(b / 10);
      DecimalInjective(a / 10, b / 10);
    }
  }
}

=== FILE: tokens.dfy ===
/**
 * The bearer-token service: the RS256 token issued after a successful DID
 * authentication and its verification on later requests.
 *
 * The signing library is abstract (`Jwt`); what the model adds on top of it is
 * the payload (subject, issued-at and expiration, RFC 7519 sections 4.1.2,
 * 4.1.6 and 4.1.4), the five-minute lifetime, the expiry rule, and how a
 * missing key and each library failure are reported.
 */
module Tokens {
  import opened Common
  import opened AuthTime

  /** The claims of an issued token; `iat` and `exp` are NumericDate values (whole seconds). */
  datatype Claims = Claims(sub: string, iat: int, exp: int)

  /**
   * The RS256 library. `sign(claims, privatePem)` gives the compact token text,
   * `verify(token, publicPem)` checks structure and signature and gives the claims,
   * or `None` for every failure other than expiry; `pairs` tells which public
   * key belongs to which private key.
   */
  datatype Jwt = Jwt(
    sign: (Claims, string) -> string,
    verify: (string, string) -> Option<Claims>,
    pairs: (string, string) -> bool)

  /**
   * What the model assumes of the library: a signature verifies, with its claims,
   * exactly under the matching public key, and the compact serialization is
   * never empty and never contains a space (section 7.1 of RFC 7515: three
   * base64url segments joined by dots).
   */
  ghost predicate Sound(j: Jwt) {
    && (forall c, priv, pub :: j.verify(j.sign(c, priv), pub) == (if j.pairs(priv, pub) then Some(c) else None))
    && (forall c, priv :: ' ' !in j.sign(c, priv) && j.sign(c, priv) != "")
  }

  /** A configured key: `if not key` treats both a missing and an empty key as absent. */
  predicate HasKey(key: Option<string>) {
    key.Some? && key.value != ""
  }

  /** A `datetime` converted to a NumericDate: the seconds, fractions dropped (floor). */
  function NumericDate(micros: int): int {
    micros / MicrosPerSecond
  }

  /** The payload for `did` issued at `now`: exp lies exactly 300 seconds after iat. */
  function IssueClaims(did: string, now: int): (c: Claims)
    ensures c.sub == did
    ensures c.exp == c.iat + TokenLifetimeSeconds
    ensures c.iat * MicrosPerSecond <= now < (c.iat + 1) * MicrosPerSecond
  {
    var iat := NumericDate(now);
    assert (now + TokenLifetimeSeconds * MicrosPerSecond) / MicrosPerSecond == iat + TokenLifetimeSeconds;
    Claims(did, iat, NumericDate(now + TokenLifetimeSeconds * MicrosPerSecond))
  }

  datatype SignOutcome = Signed(token: string) | NoSigningKey

  /** Token issuance: without a private key the request fails; otherwise the payload is signed. */
  function IssueToken(j: Jwt, privateKey: Option<string>, did: string, now: int): (r: SignOutcome)
    ensures r == NoSigningKey <==> !HasKey(privateKey)
    ensures r.Signed? ==> r.token == j.sign(IssueClaims(did, now), privateKey.value)
  {
    if !HasKey(privateKey) then NoSigningKey
    else Signed(j.sign(IssueClaims(did, now), privateKey.value))
  }

  /** The ways verifying a bearer token can end. */
  datatype BearerVerdict = BearerValid(claims: Claims) | BearerExpired | BearerInvalid | NoVerifyingKey

  /**
   * `verify_bearer_token`: without a public key the request fails; the library
   * checks the signature first, then the expiration: the token is expired once
   * the current time has reached `exp`.
   */
  function VerifyBearer(j: Jwt, publicKey: Option<string>, token: string, now: int): (r: BearerVerdict)
    ensures r == NoVerifyingKey <==> !HasKey(publicKey)
    ensures r == BearerInvalid <==> HasKey(publicKey) && j.verify(token, publicKey.value).None?
    ensures r.BearerValid? <==>
      HasKey(publicKey) && j.verify(token, publicKey.value).Some?
      && now < j.verify(token, publicKey.value).value.exp * MicrosPerSecond
    ensures r.BearerValid? ==> Some(r.claims) == j.verify(token, publicKey.value)
  {
    if !HasKey(publicKey) then NoVerifyingKey
    else match j.verify(token, publicKey.value)
      case None => BearerInvalid
      case Some(c) => if c.exp * MicrosPerSecond <= now then BearerExpired else BearerValid(c)
  }

  /**
   * Round trip: a token issued at `issued` with the private key verifies under the
   * matching public key, with the claims it was issued with, until the second
   * `iat + 300` begins, and is reported expired from then on.
   */
  lemma IssuedTokenRoundTrip(j: Jwt, priv: string, pub: string, did: string, issued: int, checked: int)
    requires Sound(j) && priv != "" && pub != "" && j.pairs(priv, pub)
    ensures IssueToken(j, Some(priv), did, issued).Signed?
    ensures VerifyBearer(j, Some(pub), IssueToken(j, Some(priv), did, issued).token, checked) ==
      if checked < IssueClaims(did, issued).exp * MicrosPerSecond
      then BearerValid(IssueClaims(did, issued))
      else BearerExpired
  {
    var c := IssueClaims(did, issued);
    assert j.verify(j.sign(c, priv), pub) == Some(c);
  }

  /**
   * Because `iat` drops the fraction of a second, an issued token is accepted for
   * at least 299 seconds and at most 300 seconds after issuance.
   */
  lemma TokenLifetime(j: Jwt, priv: string, pub: string, did: string, issued: int, checked: int)
    requires Sound(j) && priv != "" && pub != "" && j.pairs(priv, pub)
    ensures issued <= checked < issued + 299 * MicrosPerSecond ==>
      VerifyBearer(j, Some(pub), IssueToken(j, Some(priv), did, issued).token, checked).BearerValid?
    ensures checked >= issued + 300 * MicrosPerSecond ==>
      VerifyBearer(j, Some(pub), IssueToken(j, Some(priv), did, issued).token, checked) == BearerExpired
  {
    IssuedTokenRoundTrip(j, priv, pub, did, issued, checked);
  }

  /** A token signed with a key that does not pair with the public key is invalid, never expired. */
  lemma ForeignKeyRejected(j: Jwt, priv: string, pub: string, did: string, issued: int, checked: int)
    requires Sound(j) && priv != "" && pub != "" && !j.pairs(priv, pub)
    ensures VerifyBearer(j, Some(pub), IssueToken(j, Some(priv), did, issued).token, checked) == BearerInvalid
  {
    var c := IssueClaims(did, issued);
    assert j.verify(j.sign(c, priv), pub) == None;
  }
}

=== FILE: weather_info.dfy ===
/**
 * The weather endpoint: the city name is checked, turned into an AMAP
 * administrative code (adcode) by a first-prefix-match over the city table,
 * and the forecast is fetched from the AMAP weather service with that code.
 *
 * Reading the city table and calling the weather service are I/O; both are
 * parameters here (`CityTable`, `fetch`).
 */
module WeatherInfo {
  import opened Common
  import opened Text
  import opened JsonValue

  // ---------------------------------------------------------------------------
  // The city table and the adcode lookup
  // ---------------------------------------------------------------------------

  /** An adcode as stored in the table; `str()` of it is what the lookup returns. */
  datatype Adcode = AdcodeText(text: string) | AdcodeNumber(n: int) | AdcodeNull | AdcodeBool(b: bool)

  /**
   * One element of the table. `cityName` is `None` when the key is missing or
   * its value is not a string (both make the lookup raise); `adcode` is `None`
   * when that key is missing.
   */
  datatype CityEntry = CityEntry(cityName: Option<string>, adcode: Option<Adcode>)

  /** The table file: a list of entries, or a file that cannot be opened or parsed. */
  datatype CityTable = Loaded(entries: seq<CityEntry>) | Unreadable

  /** `str(n)` for an integer. */
  function IntText(n: int): (r: string)
    ensures r != []
  {
    if n < 0 then "-" + Decimal(-n) else Decimal(n)
  }

  /** `str(value)` for an adcode. */
  function Render(a: Adcode): string {
    match a
    case AdcodeText(s) => s
    case AdcodeNumber(n) => IntText(n)
    case AdcodeNull => "None"
    case AdcodeBool(b) => if b then "True" else "False"
  }

  /** The entry's name starts with the query: the scan stops here with a match. */
  predicate Named(e: CityEntry, query: string) {
    e.cityName.Some? && StartsWith(e.cityName.value, query)
  }

  /** The scan moves past this entry: it has a name and the name does not match. */
  predicate PassesOver(e: CityEntry, query: string) {
    e.cityName.Some? && !StartsWith(e.cityName.value, query)
  }

  /** Where a scan of the table ends: at a match, at an entry that raises, or after the last entry. */
  datatype Scan = Hit(index: nat) | Broken(index: nat) | Miss {
    /** How many entries the scan moved past, for a table of `n` entries. */
    function Passed(n: nat): nat {
      if Miss? then n else index
    }
  }

  /** The loop over the table, entry by entry in list order. */
  function ScanTable(entries: seq<CityEntry>, query: string): (r: Scan)
    ensures r.Hit? ==> r.index < |entries| && Named(entries[r.index], query)
    ensures r.Broken? ==> r.index < |entries| && entries[r.index].cityName.None?
    ensures r.Passed(|entries|) <= |entries|
    ensures forall j :: 0 <= j < r.Passed(|entries|) ==> PassesOver(entries[j], query)
    decreases |entries|
  {
    if entries == [] then Miss
    else if entries[0].cityName.None? then Broken(0)
    else if StartsWith(entries[0].cityName.value, query) then Hit(0)
    else
      match ScanTable(entries[1..], query)
      case Hit(i) => Hit(i + 1)
      case Broken(i) => Broken(i + 1)
      case Miss => Miss
  }

  /**
   * `get_city_adcode`: the adcode, as text, of the first entry whose name starts
   * with the query; `None` when nothing matches, and also when the file cannot
   * be read or an entry reached before the match (or the match's adcode) raises.
   */
  function GetCityAdcode(table: CityTable, query: string): (r: Option<string>)
    ensures table.Unreadable? ==> r == None
    ensures r.Some? <==>
      table.Loaded? && ScanTable(table.entries, query).Hit?
      && table.entries[ScanTable(table.entries, query).index].adcode.Some?
    ensures r.Some? ==> exists i :: (0 <= i < |table.entries| && Named(table.entries[i], query)
      && (forall j :: 0 <= j < i ==> PassesOver(table.entries[j], query))
      && table.entries[i].adcode.Some? && r.value == Render(table.entries[i].adcode.value))
  {
    match table
    case Unreadable => None
    case Loaded(entries) =>
      match ScanTable(entries, query)
      case Hit(i) => if entries[i].adcode.Some? then Some(Render(entries[i].adcode.value)) else None
      case Broken(_) => None
      case Miss => None
  }

  /** The first matching entry decides: the scan stops at the least index with a match. */
  lemma {:induction false} FirstMatchWins(entries: seq<CityEntry>, query: string, i: nat)
    requires i < |entries| && Named(entries[i], query)
    requires forall j :: 0 <= j < i ==> PassesOver(entries[j], query)
    ensures ScanTable(entries, query) == Hit(i)
    decreases i
  {
    if i > 0 {
      FirstMatchWins(entries[1..], query, i - 1);
    }
  }

  /** An entry that raises before any match makes the whole lookup fail, whatever follows it. */
  lemma {:induction false} BrokenEntryStops(entries: seq<CityEntry>, query: string, i: nat)
    requires i < |entries| && entries[i].cityName.None?
    requires forall j :: 0 <= j < i ==> PassesOver(entries[j], query)
    ensures ScanTable(entries, query) == Broken(i)
    ensures GetCityAdcode(Loaded(entries), query) == None
    decreases i
  {
    if i > 0 {
      BrokenEntryStops(entries[1..], query, i - 1);
    }
  }

  /** Entries after the point where the scan stopped are never looked at. */
  lemma {:induction false} LaterEntriesIgnored(entries: seq<CityEntry>, more: seq<CityEntry>, query: string)
    requires !ScanTable(entries, query).Miss?
    ensures ScanTable(entries + more, query) == ScanTable(entries, query)
    ensures GetCityAdcode(Loaded(entries + more), query) == GetCityAdcode(Loaded(entries), query)
    decreases |entries|
  {
    var r := ScanTable(entries, query);
    assert (entries + more)[r.index] == entries[r.index];
    if r.index > 0 {
      assert (entries + more)[1..] == entries[1..] + more;
      LaterEntriesIgnored(entries[1..], more, query);
    }
  }

  // ---------------------------------------------------------------------------
  // The endpoint
  // ---------------------------------------------------------------------------

  /** The query parameters sent to the weather service. */
  datatype WeatherQuery = WeatherQuery(city: string, key: string, extensions: string)

  /** What the weather service call yields: a status with the decoded body (or a decoding error), or an exception. */
  datatype Upstream = Responded(status: nat, body: Result<Json, string>) | Raised(error: string)

  /** How the endpoint ends. */
  datatype WeatherOutcome =
    | Forecast(data: Json)
    | NameTooShort
    | InvalidCity
    | UpstreamFailed(status: nat)
    | WeatherError(message: string)

  /** The adcode is usable: `if not adcode` rejects both `None` and "". */
  predicate Usable(adcode: Option<string>) {
    adcode.Some? && adcode.value != ""
  }

  /** The weather service call made for a usable adcode: the detailed ("all") forecast for that city. */
  function QueryFor(adcode: string, apiKey: string): (q: WeatherQuery)
    ensures q.city == adcode && q.key == apiKey
  {
    WeatherQuery(adcode, apiKey, "all")
  }

  /** The weather service answer the endpoint acts on: present only for a long enough name with a usable adcode. */
  function ServiceAnswer(cityName: string, table: CityTable, apiKey: string, fetch: WeatherQuery -> Upstream): (a: Option<Upstream>)
    ensures a.Some? <==> |cityName| > 1 && Usable(GetCityAdcode(table, cityName))
  {
    var adcode := GetCityAdcode(table, cityName);
    if |cityName| > 1 && Usable(adcode) then Some(fetch(QueryFor(adcode.value, apiKey))) else None
  }

  /**
   * `get_weather_info`: names of at most one character are refused without a
   * lookup; a name with no usable adcode is refused without calling the weather
   * service; otherwise the service is asked once, for that adcode, and a 200
   * answer is handed back unchanged.
   */
  function GetWeatherInfo(cityName: string, table: CityTable, apiKey: string, fetch: WeatherQuery -> Upstream): (r: WeatherOutcome)
    ensures r == NameTooShort <==> |cityName| <= 1
    ensures r == InvalidCity <==> |cityName| > 1 && !Usable(GetCityAdcode(table, cityName))
    ensures var a := ServiceAnswer(cityName, table, apiKey, fetch);
      && (r.Forecast? <==> a.Some? && a.value.Responded? && a.value.status == 200 && a.value.body.Ok?)
      && (r.Forecast? ==> r.data == a.value.body.value)
      && (r.UpstreamFailed? <==> a.Some? && a.value.Responded? && a.value.status != 200)
      && (r.UpstreamFailed? ==> r.status == a.value.status)
      && (r.WeatherError? <==> a.Some? && (a.value.Raised? || (a.value.status == 200 && a.value.body.Err?)))
      && (r.WeatherError? ==> r.message == if a.value.Raised? then a.value.error else a.value.body.error)
  {
    if |cityName| <= 1 then NameTooShort
    else
      var adcode := GetCityAdcode(table, cityName);
      if !Usable(adcode) then InvalidCity
      else
        match fetch(QueryFor(adcode.value, apiKey))
        case Raised(e) => WeatherError(e)
        case Responded(status, body) =>
          if status != 200 then UpstreamFailed(status)
          else
            match body
            case Ok(data) => Forecast(data)
            case Err(e) => WeatherError(e)
  }

  /** The `infocode` of a refusal: 10003 for a bad city name, 10002 for the service, 10001 for an exception. */
  function InfoCode(o: WeatherOutcome): string
    requires !o.Forecast?
  {
    match o
    case NameTooShort => "10003"
    case InvalidCity => "10003"
    case UpstreamFailed(_) => "10002"
    case WeatherError(_) => "10001"
  }

  /** The `info` text of a refusal. */
  function Info(o: WeatherOutcome): string
    requires !o.Forecast?
  {
    match o
    case NameTooShort => "City name too short"
    case InvalidCity => "Invalid city name"
    case UpstreamFailed(status) => "Weather API request failed: " + Decimal(status)
    case WeatherError(e) => "Error getting weather information: " + e
  }

  /** The response body: the service's forecast, or the fixed refusal shape. */
  function Body(o: WeatherOutcome): Json {
    if o.Forecast? then o.data
    else JObj(map[
      "status" := JStr("0"),
      "count" := JStr("0"),
      "info" := JStr(Info(o)),
      "infocode" := JStr(InfoCode(o)),
      "forecasts" := JArr([])])
  }

  /**
   * Every refusal has the same shape: status "0", count "0", no forecasts, and an
   * infocode that names its class (10003 exactly for the two city-name refusals).
   */
  lemma RefusalShape(o: WeatherOutcome)
    requires !o.Forecast?
    ensures Body(o).JObj? && Body(o).fields.Keys == {"status", "count", "info", "infocode", "forecasts"}
    ensures Field(Body(o), "status") == JStr("0") && Field(Body(o), "count") == JStr("0")
    ensures Field(Body(o), "forecasts") == JArr([])
    ensures Field(Body(o), "infocode") == JStr("10003") <==> o == NameTooShort || o == InvalidCity
    ensures Field(Body(o), "infocode") == JStr("10002") <==> o.UpstreamFailed?
    ensures Field(Body(o), "infocode") == JStr("10001") <==> o.WeatherError?
  {
  }

  /** A client can tell every refusal apart from the body alone, down to the service's status code. */
  lemma RefusalsDistinct(o1: WeatherOutcome, o2: WeatherOutcome)
    requires !o1.Forecast? && !o2.Forecast?
    requires Body(o1) == Body(o2)
    ensures o1 == o2
  {
    assert Field(Body(o1), "info") == JStr(Info(o1));
    assert Field(Body(o2), "info") == JStr(Info(o2));
    assert Info(o1) == Info(o2);
    if o1.UpstreamFailed? && o2.UpstreamFailed? {
      var prefix := "Weather API request failed: ";
      assert Info(o1)[|prefix|..] == Decimal(o1.status);
      assert Info(o2)[|prefix|..] == Decimal(o2.status);
      DecimalInjective(o1.status, o2.status);
    } else if o1.WeatherError? && o2.WeatherError? {
      var prefix := "Error getting weather information: ";
      assert Info(o1)[|prefix|..] == o1.message;
      assert Info(o2)[|prefix|..] == o2.message;
    } else {
      assert Field(Body(o1), "infocode") == JStr(InfoCode(o1));
      assert Field(Body(o2), "infocode") == JStr(InfoCode(o2));
      assert Info(o1)[0] == Info(o2)[0];
    }
  }

  /** A name of at most one character is answered without reading the table or calling the service. */
  lemma ShortNameNeedsNoLookup(cityName: string, t1: CityTable, t2: CityTable, apiKey: string,
                               f1: WeatherQuery -> Upstream, f2: WeatherQuery -> Upstream)
    requires |cityName| <= 1
    ensures GetWeatherInfo(cityName, t1, apiKey, f1) == GetWeatherInfo(cityName, t2, apiKey, f2) == NameTooShort
  {
  }

  /**
   * The only service call the endpoint depends on is the one for the looked-up
   * adcode: two services that agree on that query give the same outcome.
   */
  lemma OnlyAdcodeQueried(cityName: string, table: CityTable, apiKey: string,
                          f1: WeatherQuery -> Upstream, f2: WeatherQuery -> Upstream)
    requires |cityName| > 1 && Usable(GetCityAdcode(table, cityName))
    requires f1(QueryFor(GetCityAdcode(table, cityName).value, apiKey)) == f2(QueryFor(GetCityAdcode(table, cityName).value, apiKey))
    ensures GetWeatherInfo(cityName, table, apiKey, f1) == GetWeatherInfo(cityName, table, apiKey, f2)
  {
  }

  /**
   * End to end: when the first entry whose name starts with the query has a
   * usable adcode and the service answers 200, the forecast the service sent for
   * exactly that adcode is returned.
   */
  lemma FirstMatchForecast(cityName: string, entries: seq<CityEntry>, i: nat, apiKey: string,
                           fetch: WeatherQuery -> Upstream, data: Json)
    requires |cityName| > 1
    requires i < |entries| && Named(entries[i], cityName)
    requires forall j :: 0 <= j < i ==> PassesOver(entries[j], cityName)
    requires entries[i].adcode.Some? && Render(entries[i].adcode.value) != ""
    requires fetch(QueryFor(Render(entries[i].adcode.value), apiKey)) == Responded(200, Ok(data))
    ensures GetWeatherInfo(cityName, Loaded(entries), apiKey, fetch) == Forecast(data)
  {
    FirstMatchWins(entries, cityName, i);
  }
}
